=== FILE: README.md ===
# Segment recognition core, modelled in Dafny

This project models the core of the Jellyfin segment-recognition plugin. That core does five things:

- It **queues** the episodes of the selected libraries, grouped by season, with a fingerprint window worked out for each episode.
- It **re-checks** a season's queue before analysis: the file must still exist, and the modes that still lack a result are computed.
- It runs each season through a **chain of analyzers**, with a progress report after each season. The chain is chapters, then chromaprint, then black frames for credits only.
- The **black-frame analyzer** bisects the tail of an episode to find where the credits start.
- It keeps the found segments in a **store**. The store has one map per mode. Analyzers merge into it, it is saved as and restored from lists, and the playback endpoints serve adjusted copies of its segments.

Beside these sit the `TimeRange` value type and the plugin-wide warning flags.

The model is purely functional:

- The store and the queue are values.
- Each analyzer pass is a function, or a method whose loop is proved against a recursive reference definition.
- External facilities are parameters: the frame sampler, the chapter and chromaprint analyzers, the library query, file existence, item paths and the validity rule of a segment.

The modules are:

- `Common`: options, results, sublists, filtering.
- `TimeRanges`: `Data/TimeRange.cs`.
- `Data`: the records.
- `Store`: the timestamp maps of `Plugin.cs`.
- `BlackFrame`: `Analyzers/BlackFrameAnalyzer.cs`.
- `QueueManager`: `QueueManager.cs`.
- `ItemAnalyzer`: `BaseItemAnalyzer.cs` and `ScheduledTasks/BaseItemAnalyzerTask.cs`.
- `SkipIntroController`: `Controllers/SkipIntroController.cs`.
- `WarningManager`: `WarningManager.cs`.

Two points where the model follows the code rather than the prose description of the system:

- `GetMediaItems` resets the queued total but not the queue itself. A second scan therefore keeps the seasons of the first, and the total counts only the episodes new to that scan. `QueueManager.GetMediaItems` states exactly this.
- `TimeRange.Intersects` only asks whether the other range starts or ends strictly inside this one. It is therefore not symmetric, and a range does not intersect itself (`TimeRanges.IntersectsNotSymmetric`, `TimeRanges.IntersectsIrreflexive`).

## Model

| member | source | states |
|---|---|---|
| TimeRanges.EmptyRange | Jellyfin.Plugin.SegmentRecognition/Data/TimeRange.cs:15-19 | The parameterless range sits at time zero with zero length, and it intersects no range at all. |
| TimeRanges.CopyRange | Jellyfin.Plugin.SegmentRecognition/Data/TimeRange.cs:36-40 | A copy has the same start and end as the original. |
| TimeRanges.Duration | Jellyfin.Plugin.SegmentRecognition/Data/TimeRange.cs:55 | The duration is the amount that, added to the start, reaches the end. |
| TimeRanges.DurationNonNegative | Jellyfin.Plugin.SegmentRecognition/Data/TimeRange.cs:55 | The duration is non-negative exactly when the start is not after the end. |
| TimeRanges.CompareTo | Jellyfin.Plugin.SegmentRecognition/Data/TimeRange.cs:58-76 | The result is 0 against itself and 1 against null. Otherwise it is negative, zero or positive exactly when the other range is shorter, as long, or longer. |
| TimeRanges.CompareToAntisymmetric | Jellyfin.Plugin.SegmentRecognition/Data/TimeRange.cs:75 | Comparing two ranges in the opposite direction negates the answer. |
| TimeRanges.CompareToSortsLongestFirst | Jellyfin.Plugin.SegmentRecognition/Data/TimeRange.cs:75 | A range sorts no later than another exactly when it lasts at least as long, and the two are tied exactly when their durations are equal. |
| TimeRanges.CompareToTransitive | Jellyfin.Plugin.SegmentRecognition/Data/TimeRange.cs:75 | The order is transitive, so sorting by it is well defined. |
| TimeRanges.IntersectsSound | Jellyfin.Plugin.SegmentRecognition/Data/TimeRange.cs:83-88 | A reported intersection with a well-formed range is a real overlap. |
| TimeRanges.IntersectsIrreflexive | Jellyfin.Plugin.SegmentRecognition/Data/TimeRange.cs:83-88 | No range intersects itself. |
| TimeRanges.IntersectsNotSymmetric | Jellyfin.Plugin.SegmentRecognition/Data/TimeRange.cs:83-88 | The range 1..12 intersects 5..10, but 5..10 does not intersect 1..12, although the two overlap. |
| TimeRanges.IntersectsTestVectors | Jellyfin.Plugin.SegmentRecognition.Tests/TestContiguous.cs:91-103 | Against the range 5..10, the ranges 4..6, 7..8 and 9..12 intersect, and 1..4 and 13..15 do not. |
| Data.IntroFromRange | Jellyfin.Plugin.SegmentRecognition/Analyzers/BlackFrameAnalyzer.cs:127 | A segment built from a range belongs to the given episode, starts where the range starts and lasts as long. |
| Store.UpdateTimestamps | Jellyfin.Plugin.SegmentRecognition/Plugin.cs:266-284 | After a merge the mode's keys are the old keys plus the batch keys. Batch entries win, every other entry is kept, and the other mode's map is untouched. |
| Store.UpdateTimestampsIdempotent | Jellyfin.Plugin.SegmentRecognition/Plugin.cs:270-280 | Merging the same batch twice equals merging it once. |
| Store.UpdateTimestampsEmpty | Jellyfin.Plugin.SegmentRecognition/Plugin.cs:270-280 | An empty batch leaves the store unchanged. |
| Store.RestoreList | Jellyfin.Plugin.SegmentRecognition/Plugin.cs:175-178 | Loading a list adds exactly the list's episode ids, and keeps every entry whose id the list does not mention. |
| Store.RestoreListLastWins | Jellyfin.Plugin.SegmentRecognition/Plugin.cs:175-178 | When a list repeats an id, the last entry with that id is the one stored. |
| Store.RestoreListFromList | Jellyfin.Plugin.SegmentRecognition/Plugin.cs:175-178 | Every id the list mentions is restored to one of the list's own entries with that id. |
| Store.RestoreTimestamps | Jellyfin.Plugin.SegmentRecognition/Plugin.cs:166-192 | A missing file leaves its map as it was. A present file adds exactly the ids it lists, and keeps every entry for an id it does not list. For an id listed more than once, the last entry wins. |
| Store.ValuesOf | Jellyfin.Plugin.SegmentRecognition/Plugin.cs:144-147 | The list holds exactly the map's values. Some listing of the keys, each key exactly once, lines up with it position by position, so each entry is the value under its own key. |
| Store.SaveTimestamps | Jellyfin.Plugin.SegmentRecognition/Plugin.cs:137-161 | Each saved list is as long as its map and contains every stored segment and nothing else. Its entries correspond one to one with the map's keys. |
| Store.SavedEntryIsStored | Jellyfin.Plugin.SegmentRecognition/Plugin.cs:141-149 | In a map keyed by episode id, each saved entry is the segment stored under its own id. |
| Store.SavedIdsAreKeys | Jellyfin.Plugin.SegmentRecognition/Plugin.cs:141-149 | The ids of a saved list are exactly the keys of the map it was saved from. |
| Store.SaveRestoreRoundTrip | Jellyfin.Plugin.SegmentRecognition/Plugin.cs:137-192 | Restoring a saved list into an empty map gives the original map back, for any map keyed by episode id. |
| BlackFrame.ProbeWindow | Jellyfin.Plugin.SegmentRecognition/Analyzers/BlackFrameAnalyzer.cs:92-94 | Each probe covers two seconds, and starts at the midpoint of the offset bounds, measured back from the end of the file. |
| BlackFrame.StepNarrows | Jellyfin.Plugin.SegmentRecognition/Analyzers/BlackFrameAnalyzer.cs:112-122 | One probe moves the bounds inwards only. The range shrinks to half, or to half less the tolerance, and stays positive. |
| BlackFrame.Probes | Jellyfin.Plugin.SegmentRecognition/Analyzers/BlackFrameAnalyzer.cs:89-123 | The search makes no probe exactly when the offset range is at most four seconds. |
| BlackFrame.ProbesShape | Jellyfin.Plugin.SegmentRecognition/Analyzers/BlackFrameAnalyzer.cs:89-123 | The first probe starts from the given bounds. Each later probe starts where the previous one left the bounds, and the last one leaves them within four seconds. |
| BlackFrame.ProbeCountLogarithmic | Jellyfin.Plugin.SegmentRecognition/Analyzers/BlackFrameAnalyzer.cs:89-123 | A search of k probes started from a range wider than 2^(k-1) times four seconds, so the loop always terminates after logarithmically many probes. |
| BlackFrame.ProbeWindowsInTail | Jellyfin.Plugin.SegmentRecognition/Analyzers/BlackFrameAnalyzer.cs:92-94 | Every probe window starts between the initial lower and upper offsets from the end. |
| BlackFrame.BoundsMonotone | Jellyfin.Plugin.SegmentRecognition/Analyzers/BlackFrameAnalyzer.cs:112-122 | Across the whole search the upper bound never rises and the lower bound never falls. |
| BlackFrame.FirstFrameTime | Jellyfin.Plugin.SegmentRecognition/Analyzers/BlackFrameAnalyzer.cs:85-121 | The recorded time is zero when no probe found a black frame. Otherwise it is the absolute time of the first black frame of the last probe that found one. |
| BlackFrame.CreditsBoundary | Jellyfin.Plugin.SegmentRecognition/Analyzers/BlackFrameAnalyzer.cs:78-131 | A segment is found exactly when the recorded time is positive; it runs from that time to the end of the episode. Configured bounds within four seconds of each other never find one. |
| BlackFrame.Bisect | Jellyfin.Plugin.SegmentRecognition/Analyzers/BlackFrameAnalyzer.cs:83-123 | The loop returns the recorded time of the recursive search, and makes exactly as many probes as it does. |
| BlackFrame.AnalyzeMediaFile | Jellyfin.Plugin.SegmentRecognition/Analyzers/BlackFrameAnalyzer.cs:78-131 | The episode analysis returns the credits boundary of its search, makes as many probes as the search does, and stays within the logarithmic bound. |
| BlackFrame.CreditTimes | Jellyfin.Plugin.SegmentRecognition/Analyzers/BlackFrameAnalyzer.cs:43-61 | The found segments are keyed by exactly the ids of the episodes the search resolves. |
| BlackFrame.CreditTimesLastWins | Jellyfin.Plugin.SegmentRecognition/Analyzers/BlackFrameAnalyzer.cs:55-60 | When a resolved id occurs more than once, the segment of its last resolved episode is the one kept. |
| BlackFrame.CreditTimesWellFormed | Jellyfin.Plugin.SegmentRecognition/Analyzers/BlackFrameAnalyzer.cs:55-60 | Every found segment sits under its own episode id and starts after time zero. |
| BlackFrame.Processed | Jellyfin.Plugin.SegmentRecognition/Analyzers/BlackFrameAnalyzer.cs:43-48 | The loop looks at every episode, or stops exactly at the cancellation point. |
| BlackFrame.AnalyzeMediaFiles | Jellyfin.Plugin.SegmentRecognition/Analyzers/BlackFrameAnalyzer.cs:31-69 | The analyzer rejects every mode but credits with not-implemented. It hands back a sublist of its queue and merges exactly the segments found before cancellation. Cancelled before the first episode, it changes nothing. |
| BlackFrame.AnalyzeMediaFilesRemaining | Jellyfin.Plugin.SegmentRecognition/Analyzers/BlackFrameAnalyzer.cs:65-68 | An episode is handed back exactly when it is queued and its id was not resolved among the episodes processed. |
| QueueManager.Trim | Jellyfin.Plugin.SegmentRecognition/QueueManager.cs:110 | The result has no white space at either end, and is the input with only white space removed from its two ends. |
| QueueManager.TrimKeepsChars | Jellyfin.Plugin.SegmentRecognition/QueueManager.cs:110 | Trimming introduces no character that was not in the input. |
| QueueManager.TrimIdempotent | Jellyfin.Plugin.SegmentRecognition/QueueManager.cs:110 | Trimming twice equals trimming once. |
| QueueManager.TrimmedIsFixed | Jellyfin.Plugin.SegmentRecognition/QueueManager.cs:110 | A string with no white space at either end is its own trim. |
| QueueManager.TrimVectorBlank | Jellyfin.Plugin.SegmentRecognition/QueueManager.cs:110 | A blank entry trims to the empty string, so it is dropped. |
| QueueManager.TrimVectorPlain | Jellyfin.Plugin.SegmentRecognition/QueueManager.cs:110 | A library name without surrounding space is kept as it is. |
| QueueManager.Split | Jellyfin.Plugin.SegmentRecognition/QueueManager.cs:110 | Splitting gives at least one piece, and no piece contains the separator. |
| QueueManager.JoinSplit | Jellyfin.Plugin.SegmentRecognition/QueueManager.cs:110 | Joining the pieces of a split with the separator gives back the original setting. |
| QueueManager.SplitJoin | Jellyfin.Plugin.SegmentRecognition/QueueManager.cs:110 | Splitting a join of separator-free pieces gives back the pieces. |
| QueueManager.ParseSelectedLibraries | Jellyfin.Plugin.SegmentRecognition/QueueManager.cs:110 | Every selected name is non-empty and trimmed, and the names keep the order of the setting's comma-separated entries. |
| QueueManager.ParseSelectedLibrariesComplete | Jellyfin.Plugin.SegmentRecognition/QueueManager.cs:110 | A name is selected exactly when it is the non-empty trim of some comma-separated entry, and no selected name contains a comma. |
| QueueManager.ParseEmptySetting | Jellyfin.Plugin.SegmentRecognition/QueueManager.cs:110 | An empty setting selects no library, which means every library is scanned. |
| QueueManager.FingerprintWindow | Jellyfin.Plugin.SegmentRecognition/QueueManager.cs:198-208 | The window never exceeds the configured length limit. It never exceeds the scaled duration of an episode of at least 300 seconds, or the whole duration of a shorter one. It is either that limit or that duration. |
| QueueManager.FingerprintWindowWithinEpisode | Jellyfin.Plugin.SegmentRecognition/QueueManager.cs:198-208 | With a percentage from 0 to 100, the window lies between zero and the episode's duration. |
| QueueManager.FingerprintWindowNotMonotone | Jellyfin.Plugin.SegmentRecognition/QueueManager.cs:201-204 | A 299-second episode gets its whole length as window, while a 300-second one gets only 75 seconds. |
| QueueManager.ToQueued | Jellyfin.Plugin.SegmentRecognition/QueueManager.cs:222-234 | The queued record keeps the episode's id, path and season number. Its intro window is the fingerprint window, and its credits search starts the configured maximum before the end. A missing season number becomes 0. |
| QueueManager.QueueEpisode | Jellyfin.Plugin.SegmentRecognition/QueueManager.cs:179-237 | An episode without a path, or already queued in its season, changes nothing. Any other episode is appended to its season's list and counted once. Other seasons are untouched. |
| QueueManager.QueueEpisodeInvariants | Jellyfin.Plugin.SegmentRecognition/QueueManager.cs:210-236 | Queueing keeps season ids and episode ids distinct, and grows the queued total exactly as much as the queue grows. |
| QueueManager.QueueAll | Jellyfin.Plugin.SegmentRecognition/QueueManager.cs:165-174 | Every given episode with a non-empty path ends up in its season's list. Every record added is the queued form of such an episode of that season. The queue stays well formed, each season's list only grows, and the total counts exactly the records added. |
| QueueManager.UnselectedFoldersIgnored | Jellyfin.Plugin.SegmentRecognition/QueueManager.cs:58-65 | Adding a library folder that is not selected anywhere in the folder list changes nothing about what is scanned. |
| QueueManager.NoSelectionScansAll | Jellyfin.Plugin.SegmentRecognition/QueueManager.cs:58-65 | With no library selected, every location of every folder is scanned. |
| QueueManager.GetMediaItems | Jellyfin.Plugin.SegmentRecognition/QueueManager.cs:44-96 | Without ffmpeg the scan fails with a fingerprint error. Otherwise it only extends the queue and keeps it well formed. Every episode with a path in the selected folders' locations ends up queued. Every record added comes from such an episode. Its total counts exactly the records this scan added. |
| QueueManager.FolderEpisodesMembers | Jellyfin.Plugin.SegmentRecognition/QueueManager.cs:58-80 | An episode is found in a folder exactly when one of the folder's locations holds it. |
| QueueManager.ScanEpisodesMembers | Jellyfin.Plugin.SegmentRecognition/QueueManager.cs:58-80 | An episode is found by the scan exactly when it lies in a location of a folder that the library selection admits. |
| QueueManager.GetMediaItemsQueuesSelected | Jellyfin.Plugin.SegmentRecognition/QueueManager.cs:58-86 | With ffmpeg, every episode with a path in a selected folder is queued under its season. |
| QueueManager.GetMediaItemsAddsOnlySelected | Jellyfin.Plugin.SegmentRecognition/QueueManager.cs:165-174 | With ffmpeg, every record a scan adds is the queued form of an episode with a path in a selected folder of that season. |
| QueueManager.RequiredModesSound | Jellyfin.Plugin.SegmentRecognition/QueueManager.cs:252-276 | A mode is required exactly when it is configured and some surviving episode lacks its result. No mode is listed twice. |
| QueueManager.VerifyQueue | Jellyfin.Plugin.SegmentRecognition/QueueManager.cs:246-290 | The loop keeps exactly the episodes whose path lookup succeeds and whose file exists. It returns the required modes in the order of the reference definition, each once. |
| ItemAnalyzer.ChainFor | Jellyfin.Plugin.SegmentRecognition/BaseItemAnalyzer.cs:166-175 | Every chain starts with chapters, then chromaprint. Black frames come last and only for credits. |
| ItemAnalyzer.RunStage | Jellyfin.Plugin.SegmentRecognition/BaseItemAnalyzer.cs:177-182 | The black-frame stage never throws. It is the black-frame analyzer's run on its input, cut at the season's cancellation point. It hands on that run's remainder, which is a sublist of its input, and the store with the segments found before the cut merged in. The other stages are the supplied analyzers. |
| ItemAnalyzer.RunChain | Jellyfin.Plugin.SegmentRecognition/BaseItemAnalyzer.cs:177-182 | The analyzers are called in chain order. A chain that completes has called all of them, an exception stops it after at least one call, and an empty chain leaves its input as it is. |
| ItemAnalyzer.RunChainSingle | Jellyfin.Plugin.SegmentRecognition/BaseItemAnalyzer.cs:179-182 | A chain of one analyzer is exactly that analyzer's call on the input. |
| ItemAnalyzer.RunChainAppend | Jellyfin.Plugin.SegmentRecognition/BaseItemAnalyzer.cs:179-182 | Each analyzer is fed the remainder and store the previous ones left. Running a chain and then a second chain on what it left equals running the two concatenated, and an exception in the first chain ends the whole chain there. |
| ItemAnalyzer.ChainSublist | Jellyfin.Plugin.SegmentRecognition/Analyzers/IMediaFileAnalyzer.cs:13-18 | When every analyzer hands back a sublist of what it was given, whatever the chain leaves unresolved is a sublist of the season's episodes. |
| ItemAnalyzer.AnalyzeModeItems | Jellyfin.Plugin.SegmentRecognition/BaseItemAnalyzer.cs:146-185 | Specials without opt-in count zero and call nothing. Otherwise a completed chain counts every episode after calling the whole chain, and a failed one called a prefix of it. |
| ItemAnalyzer.AnalyzeModeItemsRunsChain | Jellyfin.Plugin.SegmentRecognition/BaseItemAnalyzer.cs:166-184 | Outside skipped specials, a mode run fails exactly when its chain throws, and leaves exactly the store and calls of that chain. |
| ItemAnalyzer.Report | Jellyfin.Plugin.SegmentRecognition/BaseItemAnalyzer.cs:135 | A report appends one value, from 0 to the current percentage, and keeps everything else. |
| ItemAnalyzer.RunModes | Jellyfin.Plugin.SegmentRecognition/BaseItemAnalyzer.cs:119-124 | Running the required modes adds at most one count per mode and episode. No report exceeds the final percentage, and the analyzer calls only grow. |
| ItemAnalyzer.SeasonStep | Jellyfin.Plugin.SegmentRecognition/BaseItemAnalyzer.cs:77-136 | An empty season changes nothing. A season with no required mode only counts its episodes. A cancelled season leaves the store alone, and the count never decreases. |
| ItemAnalyzer.RunStageKeeps | Jellyfin.Plugin.SegmentRecognition/Analyzers/BlackFrameAnalyzer.cs:63 | When the supplied analyzers only merge results in, no analyzer call deletes a stored id, the black-frame merge included. |
| ItemAnalyzer.ChainKeeps | Jellyfin.Plugin.SegmentRecognition/BaseItemAnalyzer.cs:179-182 | Under the same condition, no chain deletes a stored id, whether it completes or throws. |
| ItemAnalyzer.AnalyzeModeItemsKeeps | Jellyfin.Plugin.SegmentRecognition/BaseItemAnalyzer.cs:146-185 | Under the same condition, no mode run deletes a stored id. |
| ItemAnalyzer.RunModesKeeps | Jellyfin.Plugin.SegmentRecognition/BaseItemAnalyzer.cs:119-124 | Under the same condition, running the required modes deletes no stored id. It also keeps every id the first mode's run merged in. |
| ItemAnalyzer.SeasonStepKeeps | Jellyfin.Plugin.SegmentRecognition/BaseItemAnalyzer.cs:77-136 | Under the same condition, a season deletes no stored id. A season that runs its modes keeps every id its first required mode merged in. |
| ItemAnalyzer.PartialCount | Jellyfin.Plugin.SegmentRecognition/BaseItemAnalyzer.cs:106-110 | When some configured modes are already done, the season's episodes are counted once. Otherwise nothing is counted, and nothing else changes. |
| ItemAnalyzer.SeasonStepProcessedBound | Jellyfin.Plugin.SegmentRecognition/BaseItemAnalyzer.cs:93-124 | A season adds at most one count per configured mode for each surviving episode. |
| ItemAnalyzer.SeasonStepWithinBudget | Jellyfin.Plugin.SegmentRecognition/BaseItemAnalyzer.cs:85-124 | A season adds at most one count per configured mode for each episode queued in it. |
| ItemAnalyzer.BudgetIsTotal | Jellyfin.Plugin.SegmentRecognition/BaseItemAnalyzer.cs:58-62 | Summed over the seasons, the per-season budget is the queued total times the number of configured modes. |
| ItemAnalyzer.SeasonStepReportsBounded | Jellyfin.Plugin.SegmentRecognition/BaseItemAnalyzer.cs:93-135 | No progress value a season reports exceeds the percentage at its end. |
| ItemAnalyzer.ProgressDenominator | Jellyfin.Plugin.SegmentRecognition/BaseItemAnalyzer.cs:58-71 | The corrected progress denominator is the queued total times the number of configured modes. It is positive and never below the queued total. |
| ItemAnalyzer.RunModesCountsEveryMode | Jellyfin.Plugin.SegmentRecognition/BaseItemAnalyzer.cs:119-124 | When the analyzers resolve everything, a regular season is counted once for every required mode. |
| ItemAnalyzer.ProgressAsWrittenExceeds100 | Jellyfin.Plugin.SegmentRecognition/BaseItemAnalyzer.cs:119-135 | With one queued episode needing both modes, the season counts two processed episodes, and the progress as written reports 200. |
| ItemAnalyzer.AnalyzeQueue | Jellyfin.Plugin.SegmentRecognition/BaseItemAnalyzer.cs:58-136 | An empty queue fails with a fingerprint error, and nothing else fails. Every report is between 0 and 100, and the processed count stays within the denominator. Cancelled at once, nothing is analyzed. When the analyzers only merge, no stored id is lost. |
| ItemAnalyzer.AnalyzeItems | Jellyfin.Plugin.SegmentRecognition/BaseItemAnalyzer.cs:52-137 | The queue manager's scan comes first, and a missing ffmpeg fails the run with a fingerprint error. Otherwise the run fails exactly when the scanned queue is empty. Every report is between 0 and 100, and the processed count stays within the denominator. When the analyzers only merge, no stored id is lost. |
| ItemAnalyzer.TaskSeasonStep | Jellyfin.Plugin.SegmentRecognition/ScheduledTasks/BaseItemAnalyzerTask.cs:75-140 | A season that is empty, already analyzed or cancelled changes nothing. Otherwise it reports once. Specials without opt-in add nothing. Any other season adds exactly its surviving episodes when the chain completes, and nothing when the fingerprint exception escapes. The store is the one the chain leaves. |
| ItemAnalyzer.TaskAnalyzeQueue | Jellyfin.Plugin.SegmentRecognition/ScheduledTasks/BaseItemAnalyzerTask.cs:57-120 | An empty queue fails with a fingerprint error. The processed count never exceeds the queued total, and every report is between 0 and 100. Cancelled at once, nothing changes. When the analyzers only merge, no stored id is lost. |
| ItemAnalyzer.TaskAnalyzeItems | Jellyfin.Plugin.SegmentRecognition/ScheduledTasks/BaseItemAnalyzerTask.cs:47-121 | A fresh queue manager scans the library, so the queue is exactly one scan's result. A missing ffmpeg fails with a fingerprint error. Otherwise the run fails exactly when that queue is empty, and the processed count stays within it. When the analyzers only merge, no stored id is lost. |
| SkipIntroController.AdjustForPlayback | Jellyfin.Plugin.SegmentRecognition/Controllers/SkipIntroController.cs:86-94 | The served copy ends the configured seconds earlier. Its prompt shows at the adjusted start time, clamped to be at least zero. It hides at the adjusted time, clamped to at least one second before the new end. |
| SkipIntroController.PromptAroundStart | Jellyfin.Plugin.SegmentRecognition/Controllers/SkipIntroController.cs:91-94 | With non-negative adjustments and a segment long enough, the prompt is visible at the segment's start. |
| SkipIntroController.GetIntro | Jellyfin.Plugin.SegmentRecognition/Controllers/SkipIntroController.cs:78-102 | A missing episode gives nothing. A stored one gives its segment adjusted for playback, with the same episode and start. |
| SkipIntroController.GetIntroAfterUpdate | Jellyfin.Plugin.SegmentRecognition/Controllers/SkipIntroController.cs:78-102 | After a merge, lookups of merged ids serve the new segment. Every other lookup, and every lookup of the other mode, answers as before. |
| SkipIntroController.GetIntroTimestamps | Jellyfin.Plugin.SegmentRecognition/Controllers/SkipIntroController.cs:36-48 | The answer is not-found exactly when there is no segment or its adjusted copy is not valid. Otherwise it is that copy. |
| SkipIntroController.GetSkippableSegments | Jellyfin.Plugin.SegmentRecognition/Controllers/SkipIntroController.cs:57-72 | A mode is listed exactly when the episode has a segment of that mode, and the listed segment is what the single lookup serves. |
| SkipIntroController.FoundIsListed | Jellyfin.Plugin.SegmentRecognition/Controllers/SkipIntroController.cs:36-72 | The single endpoint finds a segment exactly when the listing has a valid one for that mode, and both serve the same copy. |
| SkipIntroController.ResetIntroTimestamps | Jellyfin.Plugin.SegmentRecognition/Controllers/SkipIntroController.cs:112-125 | A reset empties the chosen mode's map and keeps the other map. |
| SkipIntroController.ResetHidesOnlyThatMode | Jellyfin.Plugin.SegmentRecognition/Controllers/SkipIntroController.cs:112-125 | After a reset no lookup or listing shows that mode, and lookups of the other mode answer as before. |
| WarningManager.SetFlag | Jellyfin.Plugin.SegmentRecognition/WarningManager.cs:14-17 | Raising a flag adds exactly that flag and lowers none. |
| WarningManager.Clear | Jellyfin.Plugin.SegmentRecognition/WarningManager.cs:22-25 | After a clear no flag is raised. |
| WarningManager.SetFlagIdempotent | Jellyfin.Plugin.SegmentRecognition/WarningManager.cs:14-17 | Raising a raised flag changes nothing. |
| WarningManager.SetFlagCommutes | Jellyfin.Plugin.SegmentRecognition/WarningManager.cs:14-17 | Flags raised in either order give the same set. |
| WarningManager.Names | Jellyfin.Plugin.SegmentRecognition/WarningManager.cs:31-34 | The text lists exactly the raised flags' names, one per flag. |
| WarningManager.GetWarnings | Jellyfin.Plugin.SegmentRecognition/WarningManager.cs:31-34 | The text is "None" exactly when no flag is raised, and a single raised flag prints as its own name. |
| WarningManager.GetWarningsInjective | Jellyfin.Plugin.SegmentRecognition/WarningManager.cs:31-34 | Different flag sets never print the same text. |
| WarningManager.RunIsLastClearOnwards | Jellyfin.Plugin.SegmentRecognition/WarningManager.cs:14-25 | After any sequence of raises and clears, a flag is raised exactly when it was raised after the last clear. |
| WarningManager.GetWarningsTestVectors | Jellyfin.Plugin.SegmentRecognition.Tests/TestWarnings.cs:14-45 | A cleared set prints "None". One raised flag prints its name. Both flags, one of them raised twice, print both names joined by a comma in flag order. |

## Left out

- Concurrency: seasons are analyzed in parallel in the program. Here they are a sequential fold. Locks and interlocked counters are not modelled, so the model does not cover interleavings.
- Cancellation is one point in that sequential order, given by two numbers. The season check of season `cancelAt` is the first to observe it. The black-frame pass of the season before, which may still be running, observes it after `cutAt` episodes. Earlier seasons never observe it. A token that a parallel run observes at different times in different seasons is not modelled.
- I/O:
  - The XML serialisation of the saved lists is not modelled; a missing file is `None`.
  - Logging is not modelled.
  - `ffmpeg` availability is a boolean parameter, and the black-frame sampler is a function parameter (`Detector`).
  - File existence and item paths are the `PathLookup` parameter of the re-check.
- The library manager's queries are an abstract list of folders. Each location either gives its episodes or is not found. QueueManager.GetMediaItems: the per-folder catch of an exception thrown partway through a folder is not modelled.
- Arithmetic:
  - Times are real numbers in place of `double` and `TimeSpan`, so floating-point rounding is not modelled.
  - The program rounds the fingerprint bounds to whole seconds with `Convert.ToInt32`; the model keeps them unrounded.
- QueueManager.ToQueued: the program rounds the queued duration to whole seconds with `Convert.ToInt32` as well, and rounds it separately from the credits fingerprint start. The model keeps the duration unrounded, so `outroFingerprintStart + max == duration` holds here but can miss by one second in the program. The black-frame probe times and the credits end, which are measured from that duration, can differ from the program's by up to half a second.
- The chapter and chromaprint analyzers, `FindContiguous` and `Intro.Valid` are not part of this model. The first two are the `StageAnalyzer` parameter, which is assumed to keep the sublist contract of `IMediaFileAnalyzer`. The store-keeping results also assume, as `Merges`, that these analyzers change the store only through `UpdateTimestamps`. Validity is a predicate parameter.
- Exceptions other than the fingerprint exception and the not-implemented exception of a wrong-mode analyzer are not modelled: null plugin instances, I/O failures, and `ArgumentException` from `TimeRange.CompareTo` given a non-range. An analyzer exception is the `Threw` outcome.
- QueueManager.VerifyQueue: the single-mode overload is this method applied to a one-mode list, not a separate member.
- `MediaSegmentType` and `AnalysisMode` are both `Mode`, and the warning flags' numeric values are their order in `Warning`.
- The concrete scheduled tasks (`DetectIntroductionsTask`, `DetectCreditsTask`) only choose the mode list and are not modelled separately. `GetAllTimestamps`, the user-interface configuration endpoint and the service registration are not modelled either.
- Season and item totals published to the plugin instance (`TotalSeasons`, `QueuedMediaItems`) are not modelled; the queue itself is the result.
- ItemAnalyzer.AnalyzeQueue: its bounds use the corrected progress denominator (see Findings), not the division the program performs.
- ItemAnalyzer.AnalyzeItems: its bounds use the corrected progress denominator, as AnalyzeQueue's do.

## Findings

| source | as written | input that shows it | evidently intended | confidence | as-written member | corrected member |
|---|---|---|---|---|---|---|
| Jellyfin.Plugin.SegmentRecognition/BaseItemAnalyzer.cs:119-135 | Progress is `totalProcessed * 100 / totalQueued`. `totalProcessed` grows once per required mode for each episode, but `totalQueued` counts each episode only once. | Intro and credits both configured; one queued regular-season episode that lacks both results; analyzers that resolve everything. The season adds 2 to the count and reports 200. | A percentage between 0 and 100: divide by the queued total times the number of configured modes. | not executed | ItemAnalyzer.ProgressAsWrittenExceeds100 | ItemAnalyzer.AnalyzeQueue |

=== FILE: black_frame.dfy ===
/** The credits detector that looks for black frames near the end of a file.
    It bisects a range of offsets measured back from the end of the episode,
    probing a two-second window at the middle offset each time, until the
    range is no wider than the permitted error. */
module BlackFrame {
  import opened Common
  import opened TimeRanges
  import opened Data
  import opened Store

  /** The bisection stops once the offset range is this narrow (seconds). */
  const MaximumError: real := 4.0

  /** Length of every probe window (seconds). */
  const ProbeLength: real := 2.0

  /** A frame the sampler reports as black, with its time measured from the
      start of the probed window. */
  datatype BlackFrame = BlackFrame(percentage: int, time: real)

  /** The external frame sampler: the black frames of an episode inside a
      window, given the percentage of the picture that must be black. */
  type Detector = (QueuedEpisode, TimeRange, int) -> seq<BlackFrame>

  /** One probe of the search: the offset bounds before it (`upper` is the
      program's `start`, `lower` its `end`), the window sampled and what the
      sampler returned. */
  datatype Probe = Probe(upper: real, lower: real, window: TimeRange, frames: seq<BlackFrame>)

  function Midpoint(upper: real, lower: real): real
  {
    (upper + lower) / 2.0
  }

  /** The window probed for the offset bounds `upper`/`lower`: two seconds
      starting at the midpoint offset counted back from the end. */
  function ProbeWindow(duration: real, upper: real, lower: real): (tr: TimeRange)
    ensures Duration(tr) == ProbeLength
    ensures duration - tr.start == Midpoint(upper, lower)
  {
    var scanTime := duration - Midpoint(upper, lower);
    TimeRange(scanTime, scanTime + ProbeLength)
  }

  /** Upper offset bound after a probe: no black frames means the credits start
      later, so the search moves towards the end of the file. */
  function NextUpper(p: Probe): real
  {
    if |p.frames| == 0 then Midpoint(p.upper, p.lower) - ProbeLength else p.upper
  }

  /** Lower offset bound after a probe: black frames mean the credits may start
      even earlier, so the search continues towards the start of the file. */
  function NextLower(p: Probe): real
  {
    if |p.frames| == 0 then p.lower else Midpoint(p.upper, p.lower)
  }

  function Gap(p: Probe): real
  {
    p.upper - p.lower
  }

  /** One step of the search narrows the offset range from both sides and at
      least halves it, while keeping it non-empty. */
  lemma StepNarrows(p: Probe)
    requires Gap(p) > MaximumError
    ensures NextUpper(p) <= p.upper && p.lower <= NextLower(p)
    ensures NextUpper(p) - NextLower(p) == Gap(p) / 2.0 ||
            NextUpper(p) - NextLower(p) == Gap(p) / 2.0 - ProbeLength
    ensures 0.0 < NextUpper(p) - NextLower(p) <= Gap(p) / 2.0
  {
  }

  /** Probe `i + 1` starts from the bounds probe `i` left behind. */
  predicate Linked(ps: seq<Probe>, i: nat)
    requires i + 1 < |ps|
  {
    ps[i + 1].upper == NextUpper(ps[i]) && ps[i + 1].lower == NextLower(ps[i])
  }

  /** The probes the search makes when started with offset bounds `upper` and
      `lower`, in order. It probes exactly while the range is wider than the
      permitted error. */
  function Probes(ep: QueuedEpisode, minimum: int, detect: Detector, upper: real, lower: real): (ps: seq<Probe>)
    ensures |ps| == 0 <==> upper - lower <= MaximumError
    decreases (upper - lower).Floor
  {
    if upper - lower <= MaximumError then []
    else
      var window := ProbeWindow(ep.duration, upper, lower);
      var p := Probe(upper, lower, window, detect(ep, window, minimum));
      StepNarrows(p);
      assert (NextUpper(p) - NextLower(p)).Floor < (upper - lower).Floor;
      [p] + Probes(ep, minimum, detect, NextUpper(p), NextLower(p))
  }

  /** The first probe of a search, and the search that continues after it. */
  lemma ProbesUnfold(ep: QueuedEpisode, minimum: int, detect: Detector, upper: real, lower: real)
    requires upper - lower > MaximumError
    ensures var window := ProbeWindow(ep.duration, upper, lower);
      var p := Probe(upper, lower, window, detect(ep, window, minimum));
      Probes(ep, minimum, detect, upper, lower) ==
        [p] + Probes(ep, minimum, detect, NextUpper(p), NextLower(p))
  {
  }

  /** The shape of every search: it starts from the given bounds, each probe
      samples the sampler at the window of its bounds while the range is wider
      than the error, each probe continues from the bounds the previous one
      left, the bounds stay inside the initial ones, and after the last probe
      the range is no wider than the error. */
  lemma {:induction false} ProbesShape(ep: QueuedEpisode, minimum: int, detect: Detector, upper: real, lower: real)
    ensures var ps := Probes(ep, minimum, detect, upper, lower);
      && (|ps| > 0 ==> ps[0].upper == upper && ps[0].lower == lower)
      && (forall i :: 0 <= i < |ps| ==> Gap(ps[i]) > MaximumError)
      && (forall i :: 0 <= i < |ps| ==> lower <= ps[i].lower && ps[i].upper <= upper)
      && (forall i :: 0 <= i < |ps| ==>
            ps[i].window == ProbeWindow(ep.duration, ps[i].upper, ps[i].lower) &&
            ps[i].frames == detect(ep, ps[i].window, minimum))
      && (forall i :: 0 <= i < |ps| - 1 ==> Linked(ps, i))
      && (|ps| > 0 ==> NextUpper(ps[|ps| - 1]) - NextLower(ps[|ps| - 1]) <= MaximumError)
    decreases (upper - lower).Floor
  {
    var ps := Probes(ep, minimum, detect, upper, lower);
    if |ps| > 0 {
      ProbesUnfold(ep, minimum, detect, upper, lower);
      var p := ps[0];
      StepNarrows(p);
      var rest := Probes(ep, minimum, detect, NextUpper(p), NextLower(p));
      assert ps == [p] + rest;
      ProbesShape(ep, minimum, detect, NextUpper(p), NextLower(p));
      assert forall i :: 0 < i < |ps| ==> ps[i] == rest[i - 1];
      forall i | 0 <= i < |ps| - 1 ensures Linked(ps, i) {
        if i > 0 {
          assert Linked(rest, i - 1);
        }
      }
      if |rest| == 0 {
        assert NextUpper(p) - NextLower(p) <= MaximumError;
      }
    }
  }

  function Pow2(n: nat): (r: nat)
    ensures r >= 1
  {
    if n == 0 then 1 else 2 * Pow2(n - 1)
  }

  /** The search is logarithmic: with `k` probes, the initial range was wider
      than the permitted error times 2^(k-1). */
  lemma {:induction false} ProbeCountLogarithmic(ep: QueuedEpisode, minimum: int, detect: Detector, upper: real, lower: real)
    ensures var k := |Probes(ep, minimum, detect, upper, lower)|;
      k > 0 ==> MaximumError * (Pow2(k - 1) as real) < upper - lower
    decreases (upper - lower).Floor
  {
    var ps := Probes(ep, minimum, detect, upper, lower);
    if |ps| > 0 {
      ProbesUnfold(ep, minimum, detect, upper, lower);
      var p := ps[0];
      StepNarrows(p);
      var rest := Probes(ep, minimum, detect, NextUpper(p), NextLower(p));
      assert ps == [p] + rest;
      ProbeCountLogarithmic(ep, minimum, detect, NextUpper(p), NextLower(p));
      if |rest| > 0 {
        var k := |rest|;
        assert Pow2(k) as real == 2.0 * (Pow2(k - 1) as real);
        assert MaximumError * (Pow2(k - 1) as real) < NextUpper(p) - NextLower(p);
      }
    }
  }

  /** Every probe window lies in the tail of the file between the two
      configured offsets (plus the window's own two seconds). */
  lemma ProbeWindowsInTail(ep: QueuedEpisode, minimum: int, detect: Detector, upper: real, lower: real)
    ensures forall p :: p in Probes(ep, minimum, detect, upper, lower) ==>
      ep.duration - upper <= p.window.start <= ep.duration - lower &&
      p.window.end == p.window.start + ProbeLength
  {
    ProbesShape(ep, minimum, detect, upper, lower);
  }

  /** The offset bounds only ever move inwards across the whole search. */
  lemma {:induction false} BoundsMonotone(ep: QueuedEpisode, minimum: int, detect: Detector, upper: real, lower: real, i: nat, j: nat)
    requires i <= j < |Probes(ep, minimum, detect, upper, lower)|
    ensures var ps := Probes(ep, minimum, detect, upper, lower);
      ps[j].upper <= ps[i].upper && ps[i].lower <= ps[j].lower
    decreases j - i
  {
    var ps := Probes(ep, minimum, detect, upper, lower);
    ProbesShape(ep, minimum, detect, upper, lower);
    if i < j {
      BoundsMonotone(ep, minimum, detect, upper, lower, i + 1, j);
      assert Linked(ps, i);
      StepNarrows(ps[i]);
    }
  }

  /** No probe after position `i` found a black frame. */
  predicate NoHitAfter(ps: seq<Probe>, i: int)
  {
    forall j :: 0 <= j < |ps| && i < j ==> |ps[j].frames| == 0
  }

  /** The absolute time of the first black frame of the last probe that found
      any, or zero when no probe did. */
  function FirstFrameTime(ps: seq<Probe>): (t: real)
    ensures NoHitAfter(ps, -1) ==> t == 0.0
    ensures forall i :: 0 <= i < |ps| && |ps[i].frames| > 0 && NoHitAfter(ps, i) ==>
      t == ps[i].frames[0].time + ps[i].window.start
    decreases |ps|
  {
    if |ps| == 0 then 0.0
    else
      var init := ps[..|ps| - 1];
      var last := ps[|ps| - 1];
      if |last.frames| > 0 then
        assert forall i :: 0 <= i < |ps| - 1 ==> !NoHitAfter(ps, i);
        last.frames[0].time + last.window.start
      else
        assert forall i :: -1 <= i < |init| && NoHitAfter(ps, i) ==> NoHitAfter(init, i);
        FirstFrameTime(init)
  }

  /** The search the analyzer runs for one episode with the configured bounds. */
  function SearchTrace(ep: QueuedEpisode, cfg: Config, detect: Detector): seq<Probe>
  {
    Probes(ep, cfg.blackFrameMinimumPercentage, detect,
           cfg.maximumEpisodeCreditsDuration as real, cfg.minimumCreditsDuration as real)
  }

  /** The credits segment found for one episode: from the recorded first black
      frame to the end of the episode, when a positive time was recorded. */
  function CreditsBoundary(ep: QueuedEpisode, cfg: Config, detect: Detector): (r: Option<Intro>)
    ensures r.Some? <==> FirstFrameTime(SearchTrace(ep, cfg, detect)) > 0.0
    ensures r.Some? ==>
      r.value.episodeId == ep.episodeId &&
      r.value.introStart == FirstFrameTime(SearchTrace(ep, cfg, detect)) &&
      r.value.introEnd == ep.duration
    ensures (cfg.maximumEpisodeCreditsDuration - cfg.minimumCreditsDuration) as real <= MaximumError ==> r.None?
  {
    var t := FirstFrameTime(SearchTrace(ep, cfg, detect));
    if t > 0.0 then Some(IntroFromRange(ep.episodeId, TimeRange(t, ep.duration))) else None
  }

  lemma FirstFrameTimeSnoc(ps: seq<Probe>, p: Probe)
    ensures FirstFrameTime(ps + [p]) ==
      if |p.frames| > 0 then p.frames[0].time + p.window.start else FirstFrameTime(ps)
  {
    assert (ps + [p])[..|ps|] == ps;
  }

  /** One turn of the bisection loop: the probe at the current bounds extends
      the trace made so far, the bounds move inwards, and the recorded time
      follows the new probe. */
  lemma SearchStep(ep: QueuedEpisode, minimum: int, detect: Detector, upper: real, lower: real,
                   done: seq<Probe>, whole: seq<Probe>)
    requires upper - lower > MaximumError
    requires done + Probes(ep, minimum, detect, upper, lower) == whole
    ensures var window := ProbeWindow(ep.duration, upper, lower);
      var p := Probe(upper, lower, window, detect(ep, window, minimum));
      && (done + [p]) + Probes(ep, minimum, detect, NextUpper(p), NextLower(p)) == whole
      && NextUpper(p) <= upper && lower <= NextLower(p)
      && FirstFrameTime(done + [p]) ==
           (if |p.frames| > 0 then p.frames[0].time + p.window.start else FirstFrameTime(done))
  {
    var window := ProbeWindow(ep.duration, upper, lower);
    var p := Probe(upper, lower, window, detect(ep, window, minimum));
    StepNarrows(p);
    ProbesUnfold(ep, minimum, detect, upper, lower);
    var rest := Probes(ep, minimum, detect, NextUpper(p), NextLower(p));
    assert (done + [p]) + rest == done + ([p] + rest);
    FirstFrameTimeSnoc(done, p);
  }

  /** The bisection loop: probes while the offset range is wider than the
      permitted error and returns the time recorded by the last probe that
      found black frames, with the number of probes made. */
  method Bisect(ep: QueuedEpisode, minimum: int, detect: Detector, upper0: real, lower0: real)
    returns (firstFrameTime: real, probeCount: nat)
    ensures firstFrameTime == FirstFrameTime(Probes(ep, minimum, detect, upper0, lower0))
    ensures probeCount == |Probes(ep, minimum, detect, upper0, lower0)|
  {
    var start := upper0;
    var end := lower0;
    firstFrameTime := 0.0;
    ghost var done: seq<Probe> := [];
    probeCount := 0;
    while start - end > MaximumError
      invariant done + Probes(ep, minimum, detect, start, end) == Probes(ep, minimum, detect, upper0, lower0)
      invariant firstFrameTime == FirstFrameTime(done)
      invariant probeCount == |done|
      decreases |Probes(ep, minimum, detect, start, end)|
    {
      var midpoint := (start + end) / 2.0;
      var scanTime := ep.duration - midpoint;
      var tr := TimeRange(scanTime, scanTime + ProbeLength);
      var frames := detect(ep, tr, minimum);
      ghost var p := Probe(start, end, tr, frames);
      assert tr == ProbeWindow(ep.duration, start, end);
      SearchStep(ep, minimum, detect, start, end, done, Probes(ep, minimum, detect, upper0, lower0));
      if |frames| == 0 {
        start := midpoint - ProbeLength;
      } else {
        end := midpoint;
        firstFrameTime := frames[0].time + scanTime;
      }
      assert start == NextUpper(p) && end == NextLower(p);
      done := done + [p];
      probeCount := probeCount + 1;
    }
    assert Probes(ep, minimum, detect, start, end) == [];
    assert done == Probes(ep, minimum, detect, upper0, lower0);
  }

  /** The analysis of one episode: the bisection over the configured range,
      then a credits segment from the recorded time to the end of the file
      when that time is positive. The number of probes is returned too, and
      it stays logarithmic in the configured range. */
  method AnalyzeMediaFile(ep: QueuedEpisode, cfg: Config, detect: Detector) returns (intro: Option<Intro>, probeCount: nat)
    ensures intro == CreditsBoundary(ep, cfg, detect)
    ensures probeCount == |SearchTrace(ep, cfg, detect)|
    ensures probeCount > 0 ==>
      MaximumError * (Pow2(probeCount - 1) as real) <
      (cfg.maximumEpisodeCreditsDuration - cfg.minimumCreditsDuration) as real
  {
    var upper0 := cfg.maximumEpisodeCreditsDuration as real;
    var lower0 := cfg.minimumCreditsDuration as real;
    var firstFrameTime;
    firstFrameTime, probeCount := Bisect(ep, cfg.blackFrameMinimumPercentage, detect, upper0, lower0);
    ProbeCountLogarithmic(ep, cfg.blackFrameMinimumPercentage, detect, upper0, lower0);
    if firstFrameTime > 0.0 {
      intro := Some(IntroFromRange(ep.episodeId, TimeRange(firstFrameTime, ep.duration)));
    } else {
      intro := None;
    }
  }

  /** The search finds a credits segment for this episode. */
  predicate Resolves(ep: QueuedEpisode, cfg: Config, detect: Detector)
  {
    CreditsBoundary(ep, cfg, detect).Some?
  }

  /** The ids of the episodes among `eps` that the search resolves. */
  function ResolvedIds(eps: seq<QueuedEpisode>, cfg: Config, detect: Detector): set<Guid>
  {
    set i | 0 <= i < |eps| && Resolves(eps[i], cfg, detect) :: eps[i].episodeId
  }

  lemma ResolvedIdsSnoc(eps: seq<QueuedEpisode>, e: QueuedEpisode, cfg: Config, detect: Detector)
    ensures ResolvedIds(eps + [e], cfg, detect) ==
      ResolvedIds(eps, cfg, detect) + (if Resolves(e, cfg, detect) then {e.episodeId} else {})
  {
    var all := eps + [e];
    forall id | id in ResolvedIds(all, cfg, detect)
      ensures id in ResolvedIds(eps, cfg, detect) || (Resolves(e, cfg, detect) && id == e.episodeId)
    {
      var i :| 0 <= i < |all| && Resolves(all[i], cfg, detect) && all[i].episodeId == id;
      if i < |eps| { assert all[i] == eps[i]; }
    }
    forall id | id in ResolvedIds(eps, cfg, detect) ensures id in ResolvedIds(all, cfg, detect) {
      var i :| 0 <= i < |eps| && Resolves(eps[i], cfg, detect) && eps[i].episodeId == id;
      assert all[i] == eps[i];
    }
    if Resolves(e, cfg, detect) {
      assert all[|eps|] == e;
    }
  }

  /** No resolved episode after position `i` shares the id of episode `i`. */
  predicate LastResolvedWithId(eps: seq<QueuedEpisode>, i: nat, cfg: Config, detect: Detector)
    requires i < |eps|
  {
    forall j :: i < j < |eps| && Resolves(eps[j], cfg, detect) ==> eps[j].episodeId != eps[i].episodeId
  }

  /** The segments found for the episodes among `eps`, keyed by episode id:
      exactly the resolved episodes have one (`CreditTimesLastWins` says which). */
  function CreditTimes(eps: seq<QueuedEpisode>, cfg: Config, detect: Detector): (m: map<Guid, Intro>)
    ensures m.Keys == ResolvedIds(eps, cfg, detect)
    decreases |eps|
  {
    if |eps| == 0 then map[]
    else
      var init := eps[..|eps| - 1];
      var last := eps[|eps| - 1];
      var m := CreditTimes(init, cfg, detect);
      assert eps == init + [last];
      ResolvedIdsSnoc(init, last, cfg, detect);
      match CreditsBoundary(last, cfg, detect)
      case None => m
      case Some(intro) => m[last.episodeId := intro]
  }

  /** One more episode adds its segment, if it has one, over the earlier ones. */
  lemma CreditTimesStep(eps: seq<QueuedEpisode>, cfg: Config, detect: Detector)
    requires |eps| > 0
    ensures var last := eps[|eps| - 1]; var before := CreditTimes(eps[..|eps| - 1], cfg, detect);
      CreditTimes(eps, cfg, detect) ==
        if Resolves(last, cfg, detect) then before[last.episodeId := CreditsBoundary(last, cfg, detect).value]
        else before
  {
  }

  /** The segment stored under an id is the one found for the last resolved
      episode with that id: later episodes overwrite earlier ones. */
  lemma {:induction false} CreditTimesLastWins(eps: seq<QueuedEpisode>, cfg: Config, detect: Detector, i: nat)
    requires i < |eps| && Resolves(eps[i], cfg, detect) && LastResolvedWithId(eps, i, cfg, detect)
    ensures var m := CreditTimes(eps, cfg, detect);
      eps[i].episodeId in m && Some(m[eps[i].episodeId]) == CreditsBoundary(eps[i], cfg, detect)
    decreases |eps|
  {
    var init := eps[..|eps| - 1];
    var last := eps[|eps| - 1];
    var id := eps[i].episodeId;
    if i < |init| {
      assert init[i] == eps[i];
      assert LastResolvedWithId(init, i, cfg, detect);
      CreditTimesLastWins(init, cfg, detect, i);
      assert !Resolves(last, cfg, detect) || last.episodeId != id;
      CreditTimesKeeps(eps, cfg, detect, id);
    } else {
      assert eps[i] == last;
      CreditTimesAddsLast(eps, cfg, detect);
    }
  }

  /** A later episode that does not resolve to the same id leaves that id's
      segment as it was. */
  lemma CreditTimesKeeps(eps: seq<QueuedEpisode>, cfg: Config, detect: Detector, id: Guid)
    requires |eps| > 0 && id in CreditTimes(eps[..|eps| - 1], cfg, detect)
    requires !Resolves(eps[|eps| - 1], cfg, detect) || eps[|eps| - 1].episodeId != id
    ensures id in CreditTimes(eps, cfg, detect)
    ensures CreditTimes(eps, cfg, detect)[id] == CreditTimes(eps[..|eps| - 1], cfg, detect)[id]
  {
    CreditTimesStep(eps, cfg, detect);
  }

  /** The last episode's segment, when it has one, is stored under its id. */
  lemma CreditTimesAddsLast(eps: seq<QueuedEpisode>, cfg: Config, detect: Detector)
    requires |eps| > 0 && Resolves(eps[|eps| - 1], cfg, detect)
    ensures eps[|eps| - 1].episodeId in CreditTimes(eps, cfg, detect)
    ensures Some(CreditTimes(eps, cfg, detect)[eps[|eps| - 1].episodeId]) == CreditsBoundary(eps[|eps| - 1], cfg, detect)
  {
    CreditTimesStep(eps, cfg, detect);
  }

  /** Every found segment belongs to its own episode and starts at a
      positive time. */
  lemma CreditTimesWellFormed(eps: seq<QueuedEpisode>, cfg: Config, detect: Detector)
    ensures var m := CreditTimes(eps, cfg, detect);
      forall id :: id in m ==> m[id].episodeId == id && m[id].introStart > 0.0
  {
    var m := CreditTimes(eps, cfg, detect);
    forall id | id in m ensures m[id].episodeId == id && m[id].introStart > 0.0 {
      var i :| 0 <= i < |eps| && Resolves(eps[i], cfg, detect) && eps[i].episodeId == id;
      var j := LastIndex(eps, i, cfg, detect);
      CreditTimesLastWins(eps, cfg, detect, j);
    }
  }

  /** The position of the last resolved episode sharing the id of episode `i`. */
  function LastIndex(eps: seq<QueuedEpisode>, i: nat, cfg: Config, detect: Detector): (j: nat)
    requires i < |eps| && Resolves(eps[i], cfg, detect)
    ensures i <= j < |eps| && Resolves(eps[j], cfg, detect)
    ensures eps[j].episodeId == eps[i].episodeId && LastResolvedWithId(eps, j, cfg, detect)
    decreases |eps| - i
  {
    if LastResolvedWithId(eps, i, cfg, detect) then i
    else
      var k :| i < k < |eps| && Resolves(eps[k], cfg, detect) && eps[k].episodeId == eps[i].episodeId;
      LastIndex(eps, k, cfg, detect)
  }

  /** How many episodes the analyzer looks at before it sees the cancellation
      that is first observed before episode number `cancelAt`. */
  function Processed(queue: seq<QueuedEpisode>, cancelAt: nat): (n: nat)
    ensures n <= |queue| && n <= cancelAt
    ensures n == |queue| || n == cancelAt
  {
    if cancelAt < |queue| then cancelAt else |queue|
  }

  /** The black-frame analyzer over a season's queue. It searches each episode
      until cancellation, merges what it found into the credits map (also after
      a cancellation) and returns the episodes still without credits, in order. */
  function AnalyzeMediaFiles(queue: seq<QueuedEpisode>, mode: Mode, store: Store, cfg: Config,
                             detect: Detector, cancelAt: nat): (r: Result<(seq<QueuedEpisode>, Store), Error>)
    ensures r.Failure? <==> mode != Credits
    ensures r.Failure? ==> r.error == NotImplementedError
    ensures r.Success? ==> IsSublist(r.value.0, queue)
    ensures r.Success? ==>
      r.value.1 == UpdateTimestamps(store, CreditTimes(queue[..Processed(queue, cancelAt)], cfg, detect), Credits)
    ensures r.Success? && cancelAt == 0 ==> r.value == (queue, store)
  {
    if mode != Credits then Failure(NotImplementedError)
    else
      var found := CreditTimes(queue[..Processed(queue, cancelAt)], cfg, detect);
      var remaining := Filter(queue, (e: QueuedEpisode) => e.episodeId !in found);
      FilterIsSublist(queue, (e: QueuedEpisode) => e.episodeId !in found);
      assert cancelAt == 0 ==> remaining == queue && UpdateTimestamps(store, found, Credits) == store by {
        if cancelAt == 0 {
          assert found == map[];
          FilterKeepAll(queue, (e: QueuedEpisode) => e.episodeId !in found);
          UpdateTimestampsEmpty(store, Credits);
        }
      }
      Success((remaining, UpdateTimestamps(store, found, Credits)))
  }

  /** The episodes handed back are exactly the queued ones whose id did not
      get a segment before the cancellation was seen. */
  lemma AnalyzeMediaFilesRemaining(queue: seq<QueuedEpisode>, store: Store, cfg: Config,
                                   detect: Detector, cancelAt: nat, e: QueuedEpisode)
    ensures var r := AnalyzeMediaFiles(queue, Credits, store, cfg, detect, cancelAt);
      e in r.value.0 <==>
        e in queue && e.episodeId !in ResolvedIds(queue[..Processed(queue, cancelAt)], cfg, detect)
  {
    var found := CreditTimes(queue[..Processed(queue, cancelAt)], cfg, detect);
    FilterMembers(queue, (e: QueuedEpisode) => e.episodeId !in found, e);
  }
}

=== FILE: common.dfy ===
/** Small generic building blocks shared by the whole model: optional values,
    results carrying an error, order-preserving sublists and filtering. */
module Common {

  /** The absence of a value, where the program uses `null`. */
  datatype Option<+T> = None | Some(value: T)

  /** A value, or the exception the program would have thrown instead. */
  datatype Result<+T, +E> = Success(value: T) | Failure(error: E)

  /** `xs` can be obtained from `ys` by deleting elements: every element of `xs`
      comes from `ys`, in the same order, and nothing is invented. */
  predicate IsSublist<T(==)>(xs: seq<T>, ys: seq<T>)
    decreases |ys|
  {
    |xs| == 0 ||
    (|ys| > 0 &&
     ((xs[0] == ys[0] && IsSublist(xs[1..], ys[1..])) || IsSublist(xs, ys[1..])))
  }

  lemma {:induction false} SublistLength<T>(xs: seq<T>, ys: seq<T>)
    requires IsSublist(xs, ys)
    ensures |xs| <= |ys|
    ensures forall x :: x in xs ==> x in ys
    decreases |ys|
  {
    if |xs| == 0 {
    } else if xs[0] == ys[0] && IsSublist(xs[1..], ys[1..]) {
      SublistLength(xs[1..], ys[1..]);
      forall x | x in xs ensures x in ys {
        if x != xs[0] {
          assert x in xs[1..];
        }
      }
    } else {
      SublistLength(xs, ys[1..]);
    }
  }

  lemma {:induction false} SublistReflexive<T>(xs: seq<T>)
    ensures IsSublist(xs, xs)
    decreases |xs|
  {
    if |xs| > 0 {
      SublistReflexive(xs[1..]);
    }
  }

  lemma {:induction false} SublistTransitive<T>(a: seq<T>, b: seq<T>, c: seq<T>)
    requires IsSublist(a, b) && IsSublist(b, c)
    ensures IsSublist(a, c)
    decreases |a| + |b| + |c|
  {
    if |a| == 0 {
    } else if IsSublist(b, c[1..]) {
      SublistTransitive(a, b, c[1..]);
    } else if a[0] == b[0] && IsSublist(a[1..], b[1..]) {
      SublistTransitive(a[1..], b[1..], c[1..]);
    } else {
      SublistTransitive(a, b[1..], c[1..]);
    }
  }

  /** The elements of `xs` that satisfy `keep`, in their original order. */
  function Filter<T(==)>(xs: seq<T>, keep: T -> bool): (r: seq<T>)
    ensures |r| <= |xs|
    ensures forall i :: 0 <= i < |r| ==> r[i] in xs && keep(r[i])
    ensures forall i :: 0 <= i < |xs| && keep(xs[i]) ==> xs[i] in r
    decreases |xs|
  {
    if |xs| == 0 then []
    else if keep(xs[0]) then [xs[0]] + Filter(xs[1..], keep)
    else Filter(xs[1..], keep)
  }

  /** An element survives the filter exactly when it occurs and is kept. */
  lemma FilterMembers<T>(xs: seq<T>, keep: T -> bool, x: T)
    ensures x in Filter(xs, keep) <==> x in xs && keep(x)
  {
    var r := Filter(xs, keep);
    if x in r {
      var i :| 0 <= i < |r| && r[i] == x;
    }
    if x in xs && keep(x) {
      var i :| 0 <= i < |xs| && xs[i] == x;
    }
  }

  lemma {:induction false} FilterIsSublist<T>(xs: seq<T>, keep: T -> bool)
    ensures IsSublist(Filter(xs, keep), xs)
    decreases |xs|
  {
    if |xs| > 0 {
      FilterIsSublist(xs[1..], keep);
      if keep(xs[0]) {
        assert Filter(xs, keep)[1..] == Filter(xs[1..], keep);
      }
    }
  }

  /** Filtering with a predicate that keeps everything is the identity. */
  lemma {:induction false} FilterKeepAll<T>(xs: seq<T>, keep: T -> bool)
    requires forall x :: x in xs ==> keep(x)
    ensures Filter(xs, keep) == xs
    decreases |xs|
  {
    if |xs| > 0 {
      assert forall x :: x in xs[1..] ==> x in xs;
      FilterKeepAll(xs[1..], keep);
    }
  }

  /** Filtering one more element at the end extends the result by that
      element exactly when it is kept. */
  lemma {:induction false} FilterSnoc<T>(xs: seq<T>, x: T, keep: T -> bool)
    ensures Filter(xs + [x], keep) == Filter(xs, keep) + (if keep(x) then [x] else [])
    decreases |xs|
  {
    if |xs| > 0 {
      assert (xs + [x])[1..] == xs[1..] + [x];
      FilterSnoc(xs[1..], x, keep);
    } else {
      assert (xs + [x])[1..] == [];
    }
  }

  /** No element occurs twice. */
  predicate Distinct<T(==)>(xs: seq<T>)
  {
    forall i, j :: 0 <= i < j < |xs| ==> xs[i] != xs[j]
  }

  /** A sequence without repetitions drawn from `ys` is no longer than `ys`. */
  lemma {:induction false} DistinctWithin<T>(xs: seq<T>, ys: seq<T>)
    requires Distinct(xs)
    requires forall x :: x in xs ==> x in ys
    ensures |xs| <= |ys|
    decreases |xs|
  {
    if |xs| > 0 {
      var x := xs[0];
      assert x in xs;
      var j :| 0 <= j < |ys| && ys[j] == x;
      var rest := ys[..j] + ys[j + 1..];
      forall y | y in xs[1..] ensures y in rest {
        var k :| 1 <= k < |xs| && xs[k] == y;
        assert y != x;
        assert y in xs;
        var m :| 0 <= m < |ys| && ys[m] == y;
        if m < j {
          assert rest[m] == y;
        } else {
          assert rest[m - 1] == y;
        }
      }
      assert Distinct(xs[1..]) by {
        forall a, b | 0 <= a < b < |xs[1..]| ensures xs[1..][a] != xs[1..][b] {
          assert xs[1..][a] == xs[a + 1] && xs[1..][b] == xs[b + 1];
        }
      }
      DistinctWithin(xs[1..], rest);
    }
  }
}

=== FILE: data.dfy ===
/** The records the detection pipeline passes around: detection modes, queued
    episodes, stored segments and the configuration values the core reads. */
module Data {
  import opened TimeRanges

  /** Library item identifiers. Only equality between them matters. */
  type Guid = nat

  /** The two kinds of skippable segment. The program spells them both as
      `AnalysisMode {Introduction, Credits}` and as `MediaSegmentType {Intro, Outro}`;
      both are this one type here. */
  datatype Mode = Introduction | Credits

  /** The exceptions of the core that reach a caller or a season boundary. */
  datatype Error =
    | FingerprintError     // `FingerprintException`
    | NotImplementedError  // `NotImplementedException` from an analyzer given the wrong mode

  /** One episode waiting for analysis, with its duration and its derived
      fingerprint bounds in seconds. The program rounds all three to whole
      seconds, each on its own; here they are kept unrounded. */
  datatype QueuedEpisode = QueuedEpisode(
    seriesName: string,
    seasonNumber: int,
    episodeId: Guid,
    name: string,
    path: string,
    duration: real,
    introFingerprintEnd: real,
    outroFingerprintStart: real)

  /** A stored segment for one episode, including the two client prompt times
      that the playback endpoint fills in on its copy. */
  datatype Intro = Intro(
    episodeId: Guid,
    introStart: real,
    introEnd: real,
    showSkipPromptAt: real,
    hideSkipPromptAt: real)

  /** The segment an analyzer creates from an episode id and a range; the
      prompt times are only set later, by the playback endpoint. */
  function IntroFromRange(id: Guid, tr: TimeRange): (i: Intro)
    ensures i.episodeId == id
    ensures i.introEnd - i.introStart == Duration(tr)
    ensures i.introStart == tr.start
  {
    Intro(id, tr.start, tr.end, 0.0, 0.0)
  }

  /** The configuration values the core reads. */
  datatype Config = Config(
    analysisPercent: int,
    analysisLengthLimit: int,
    selectedLibraries: string,
    minimumCreditsDuration: int,
    maximumEpisodeCreditsDuration: int,
    blackFrameMinimumPercentage: int,
    analyzeSeasonZero: bool,
    secondsOfIntroToPlay: int,
    showPromptAdjustment: int,
    hidePromptAdjustment: int)
}

=== FILE: item_analyzer.dfy ===
/** Season orchestration: for each queued season, re-check its episodes, run
    the analyzer chain once per required mode and count progress. Two variants
    exist in the program: the multi-mode analyzer and the older single-mode
    task. The chapter and chromaprint analyzers are abstract; the black-frame
    analyzer is the model of its own module. Seasons are processed one after
    another. A cancellation happens at one point of that sequence: the season
    check of season `cancelAt` is the first to observe it, and the black-frame
    pass of the season before, if it runs, observes it after `cutAt` episodes. */
module ItemAnalyzer {
  import opened Common
  import opened Data
  import opened Store
  import opened BlackFrame
  import opened QueueManager

  /** The analyzers of the chain. */
  datatype Stage = ChapterStage | ChromaprintStage | BlackFrameStage

  /** What an analyzer call leaves behind: the episodes it could not resolve
      and the store after its merge, or the store as it was when a
      fingerprint exception escaped. */
  datatype Outcome = Resolved(remaining: seq<QueuedEpisode>, store: Store) | Threw(store: Store)

  /** The chapter and chromaprint analyzers, whose bodies are not part of this model. */
  type StageAnalyzer = (Stage, seq<QueuedEpisode>, Mode, Store) -> Outcome

  /** Everything a season's analysis depends on besides the queue and the
      store. `blackFrameCut` is the number of episodes after which the
      black-frame pass observes a cancellation, or `None` when it never does. */
  datatype Env = Env(cfg: Config, analyze: StageAnalyzer, detect: Detector, blackFrameCut: Option<nat>)

  /** The environment of season `i` under a cancellation first observed by the
      season check of season `cancelAt`: only the season just before it can
      still be in its black-frame pass, which stops after `cutAt` episodes. */
  function SeasonEnv(cfg: Config, analyze: StageAnalyzer, detect: Detector, i: nat, cancelAt: nat, cutAt: nat): Env
  {
    Env(cfg, analyze, detect, if i + 1 == cancelAt then Some(cutAt) else None)
  }

  /** The contract every analyzer promises: what it returns is a sublist of
      what it was given. */
  ghost predicate Honest(analyze: StageAnalyzer)
  {
    forall s, items, mode, store :: analyze(s, items, mode, store).Resolved? ==>
      IsSublist(analyze(s, items, mode, store).remaining, items)
  }

  /** The chain for a mode: chapters, then chromaprint, then black frames for credits only. */
  function ChainFor(mode: Mode): (stages: seq<Stage>)
    ensures |stages| >= 2 && stages[0] == ChapterStage && stages[1] == ChromaprintStage
    ensures BlackFrameStage in stages <==> mode == Credits
    ensures mode == Credits ==> stages == [ChapterStage, ChromaprintStage, BlackFrameStage]
    ensures mode == Introduction ==> stages == [ChapterStage, ChromaprintStage]
  {
    [ChapterStage, ChromaprintStage] + (if mode == Credits then [BlackFrameStage] else [])
  }

  /** The number of episodes the black-frame pass looks at before it observes
      a cancellation: all of them when it never does. */
  function BlackFrameCut(env: Env, items: seq<QueuedEpisode>): nat
  {
    if env.blackFrameCut.Some? then env.blackFrameCut.value else |items|
  }

  /** One analyzer call. The black-frame stage is only ever run for credits;
      it hands on what the black-frame analyzer leaves unresolved, and the
      store with the segments found before the cancellation merged in. */
  function RunStage(env: Env, stage: Stage, items: seq<QueuedEpisode>, mode: Mode, store: Store): (r: Outcome)
    requires stage == BlackFrameStage ==> mode == Credits
    ensures stage == BlackFrameStage ==> r.Resolved? && IsSublist(r.remaining, items)
    ensures stage == BlackFrameStage ==>
      r.store == UpdateTimestamps(store, CreditTimes(items[..Processed(items, BlackFrameCut(env, items))], env.cfg, env.detect), Credits)
    ensures stage == BlackFrameStage ==>
      r == Resolved(AnalyzeMediaFiles(items, mode, store, env.cfg, env.detect, BlackFrameCut(env, items)).value.0,
                    AnalyzeMediaFiles(items, mode, store, env.cfg, env.detect, BlackFrameCut(env, items)).value.1)
    ensures stage != BlackFrameStage ==> r == env.analyze(stage, items, mode, store)
  {
    if stage == BlackFrameStage then
      var out := AnalyzeMediaFiles(items, mode, store, env.cfg, env.detect, BlackFrameCut(env, items));
      Resolved(out.value.0, out.value.1)
    else env.analyze(stage, items, mode, store)
  }

  /** The outcome of a chain together with the analyzers it called, in order. */
  datatype ChainRun = ChainRun(outcome: Outcome, calls: seq<Stage>)

  /** Feeds each analyzer the remainder of the one before. An escaping
      fingerprint exception stops the chain. */
  function RunChain(env: Env, stages: seq<Stage>, items: seq<QueuedEpisode>, mode: Mode, store: Store): (r: ChainRun)
    requires BlackFrameStage in stages ==> mode == Credits
    ensures r.calls <= stages
    ensures r.outcome.Resolved? ==> r.calls == stages
    ensures r.outcome.Threw? ==> |r.calls| > 0
    ensures |stages| == 0 ==> r == ChainRun(Resolved(items, store), [])
    decreases |stages|
  {
    if |stages| == 0 then ChainRun(Resolved(items, store), [])
    else
      assert stages[0] in stages;
      assert BlackFrameStage in stages[1..] ==> BlackFrameStage in stages;
      match RunStage(env, stages[0], items, mode, store)
      case Threw(st) => ChainRun(Threw(st), [stages[0]])
      case Resolved(rest, st) =>
        var tail := RunChain(env, stages[1..], rest, mode, st);
        ChainRun(tail.outcome, [stages[0]] + tail.calls)
  }

  /** A chain of one analyzer is that analyzer's call. */
  lemma {:induction false} RunChainSingle(env: Env, stage: Stage, items: seq<QueuedEpisode>, mode: Mode, store: Store)
    requires stage == BlackFrameStage ==> mode == Credits
    ensures RunChain(env, [stage], items, mode, store) == ChainRun(RunStage(env, stage, items, mode, store), [stage])
  {
    assert [stage][1..] == [];
  }

  /** One step of a non-empty chain: its first analyzer runs on the input,
      and unless it throws, the rest of the chain runs on what it leaves. */
  lemma RunChainUnfold(env: Env, stages: seq<Stage>, items: seq<QueuedEpisode>, mode: Mode, store: Store)
    requires |stages| > 0
    requires BlackFrameStage in stages ==> mode == Credits
    ensures stages[0] == BlackFrameStage ==> mode == Credits
    ensures BlackFrameStage in stages[1..] ==> mode == Credits
    ensures var step := RunStage(env, stages[0], items, mode, store);
      step.Threw? ==> RunChain(env, stages, items, mode, store) == ChainRun(Threw(step.store), [stages[0]])
    ensures var step := RunStage(env, stages[0], items, mode, store);
      step.Resolved? ==>
        var tail := RunChain(env, stages[1..], step.remaining, mode, step.store);
        RunChain(env, stages, items, mode, store) == ChainRun(tail.outcome, [stages[0]] + tail.calls)
  {
    assert stages[0] in stages;
    assert BlackFrameStage in stages[1..] ==> BlackFrameStage in stages;
  }

  /** Running two chains one after the other is running their concatenation:
      the second chain is fed the remainder and the store the first one left,
      and an exception in the first one stops the whole chain there. */
  lemma {:induction false} RunChainAppend(env: Env, s1: seq<Stage>, s2: seq<Stage>, items: seq<QueuedEpisode>, mode: Mode, store: Store)
    requires BlackFrameStage in s1 + s2 ==> mode == Credits
    ensures var first := RunChain(env, s1, items, mode, store);
      first.outcome.Threw? ==> RunChain(env, s1 + s2, items, mode, store) == first
    ensures var first := RunChain(env, s1, items, mode, store).outcome;
      first.Resolved? ==>
        var tail := RunChain(env, s2, first.remaining, mode, first.store);
        RunChain(env, s1 + s2, items, mode, store) == ChainRun(tail.outcome, s1 + tail.calls)
    decreases |s1|
  {
    if |s1| == 0 {
      assert s1 + s2 == s2;
    } else {
      var both := s1 + s2;
      assert both[0] == s1[0] && both[1..] == s1[1..] + s2;
      RunChainUnfold(env, s1, items, mode, store);
      RunChainUnfold(env, both, items, mode, store);
      var step := RunStage(env, s1[0], items, mode, store);
      if step.Resolved? {
        RunChainAppend(env, s1[1..], s2, step.remaining, mode, step.store);
        var rest := RunChain(env, s1[1..], step.remaining, mode, step.store).outcome;
        if rest.Resolved? {
          var tail := RunChain(env, s2, rest.remaining, mode, rest.store);
          assert [s1[0]] + (s1[1..] + tail.calls) == s1 + tail.calls;
        }
      }
    }
  }

  /** When every analyzer keeps its contract, whatever the chain leaves
      unresolved is a sublist of the episodes it was given. */
  lemma {:induction false} ChainSublist(env: Env, stages: seq<Stage>, items: seq<QueuedEpisode>, mode: Mode, store: Store)
    requires Honest(env.analyze)
    requires BlackFrameStage in stages ==> mode == Credits
    ensures RunChain(env, stages, items, mode, store).outcome.Resolved? ==>
      IsSublist(RunChain(env, stages, items, mode, store).outcome.remaining, items)
    decreases |stages|
  {
    if |stages| == 0 {
      SublistReflexive(items);
    } else {
      assert stages[0] in stages;
      assert BlackFrameStage in stages[1..] ==> BlackFrameStage in stages;
      var first := RunStage(env, stages[0], items, mode, store);
      if first.Resolved? {
        assert IsSublist(first.remaining, items);
        ChainSublist(env, stages[1..], first.remaining, mode, first.store);
        var r := RunChain(env, stages, items, mode, store);
        if r.outcome.Resolved? {
          SublistTransitive(r.outcome.remaining, first.remaining, items);
        }
      }
    }
  }

  /** The result of analyzing a season's episodes for one mode. */
  datatype ModeRun = Analyzed(count: nat, store: Store, calls: seq<Stage>) | Failed(store: Store, calls: seq<Stage>)

  /** Specials are only analyzed when the user opted in. */
  predicate SkipsSpecials(items: seq<QueuedEpisode>, cfg: Config)
    requires |items| > 0
  {
    items[0].seasonNumber == 0 && !cfg.analyzeSeasonZero
  }

  /** Analyzes a season's episodes for one mode. Specials without opt-in count
      as zero and run nothing; otherwise the chain runs and the count is the
      number of episodes passed in, resolved or not. A fingerprint exception
      from the chain escapes as `Failed`. */
  function AnalyzeModeItems(env: Env, items: seq<QueuedEpisode>, mode: Mode, store: Store): (r: ModeRun)
    requires |items| > 0
    ensures SkipsSpecials(items, env.cfg) ==> r == Analyzed(0, store, [])
    ensures !SkipsSpecials(items, env.cfg) ==> r.calls <= ChainFor(mode) && |r.calls| > 0
    ensures !SkipsSpecials(items, env.cfg) && r.Analyzed? ==> r.count == |items| && r.calls == ChainFor(mode)
  {
    if SkipsSpecials(items, env.cfg) then Analyzed(0, store, [])
    else
      var run := RunChain(env, ChainFor(mode), items, mode, store);
      match run.outcome
      case Threw(st) => Failed(st, run.calls)
      case Resolved(_, st) => Analyzed(|items|, st, run.calls)
  }

  /** Outside the skipped specials, a mode run is its chain's run: it fails
      exactly when the chain throws, and leaves the chain's store and calls. */
  lemma AnalyzeModeItemsRunsChain(env: Env, items: seq<QueuedEpisode>, mode: Mode, store: Store)
    requires |items| > 0 && !SkipsSpecials(items, env.cfg)
    ensures var r := AnalyzeModeItems(env, items, mode, store);
      var run := RunChain(env, ChainFor(mode), items, mode, store);
      && (r.Failed? <==> run.outcome.Threw?)
      && r.store == run.outcome.store
      && r.calls == run.calls
  {
  }

  // ---------------------------------------------------------------------
  // Stored results are only ever merged in
  // ---------------------------------------------------------------------

  /** The contract of the analyzers' `UpdateTimestamps` calls: whatever an
      analyzer leaves behind, thrown or not, still holds every stored id. */
  ghost predicate Merges(analyze: StageAnalyzer)
  {
    forall s, items, mode, store :: KeepsIds(store, MergedStore(analyze, s, items, mode, store))
  }

  /** The store a supplied analyzer leaves behind. */
  function MergedStore(analyze: StageAnalyzer, s: Stage, items: seq<QueuedEpisode>, mode: Mode, store: Store): Store
  {
    analyze(s, items, mode, store).store
  }

  /** No analyzer call deletes a stored result. */
  lemma RunStageKeeps(env: Env, stage: Stage, items: seq<QueuedEpisode>, mode: Mode, store: Store)
    requires Merges(env.analyze)
    requires stage == BlackFrameStage ==> mode == Credits
    ensures KeepsIds(store, RunStage(env, stage, items, mode, store).store)
  {
    if stage != BlackFrameStage {
      assert KeepsIds(store, MergedStore(env.analyze, stage, items, mode, store));
    }
  }

  /** No chain deletes a stored result. */
  lemma {:induction false} ChainKeeps(env: Env, stages: seq<Stage>, items: seq<QueuedEpisode>, mode: Mode, store: Store)
    requires Merges(env.analyze)
    requires BlackFrameStage in stages ==> mode == Credits
    ensures KeepsIds(store, RunChain(env, stages, items, mode, store).outcome.store)
    decreases |stages|
  {
    if |stages| > 0 {
      RunChainUnfold(env, stages, items, mode, store);
      var step := RunStage(env, stages[0], items, mode, store);
      RunStageKeeps(env, stages[0], items, mode, store);
      if step.Resolved? {
        ChainKeeps(env, stages[1..], step.remaining, mode, step.store);
      }
    }
  }

  /** No mode run deletes a stored result. */
  lemma AnalyzeModeItemsKeeps(env: Env, items: seq<QueuedEpisode>, mode: Mode, store: Store)
    requires Merges(env.analyze) && |items| > 0
    ensures KeepsIds(store, AnalyzeModeItems(env, items, mode, store).store)
  {
    if !SkipsSpecials(items, env.cfg) {
      AnalyzeModeItemsRunsChain(env, items, mode, store);
      ChainKeeps(env, ChainFor(mode), items, mode, store);
    }
  }

  // ---------------------------------------------------------------------
  // Progress bookkeeping
  // ---------------------------------------------------------------------

  /** The shared counters of a run: episodes processed, progress values
      reported, the result store, and the analyzers called. */
  datatype Tally = Tally(processed: nat, reports: seq<int>, store: Store, calls: seq<Stage>)

  /** Reports `processed * 100 / denominator` as the current progress. */
  function Report(t: Tally, denominator: nat): (r: Tally)
    requires denominator > 0
    ensures r.processed == t.processed && r.store == t.store && r.calls == t.calls
    ensures |r.reports| == |t.reports| + 1 && r.reports[..|t.reports|] == t.reports
    ensures 0 <= r.reports[|t.reports|] <= r.processed * 100 / denominator
  {
    t.(reports := t.reports + [t.processed * 100 / denominator])
  }

  /** A percentage of a part no larger than the whole is at most 100. */
  lemma PercentAtMost100(part: nat, whole: nat)
    requires part <= whole && whole > 0
    ensures 0 <= part * 100 / whole <= 100
  {
    var q := part * 100 / whole;
    assert q * whole + (part * 100) % whole == part * 100;
    if q > 100 {
      MulMonotone(whole, 101, q);
      MulMonotone(100, part, whole);
      assert false;
    }
  }

  lemma DivMonotone(a: int, b: int, d: int)
    requires 0 <= a <= b && d > 0
    ensures 0 <= a / d <= b / d
  {
    if a / d > b / d {
      assert d * (a / d) >= d * (b / d + 1) by {
        MulMonotone(d, b / d + 1, a / d);
      }
      assert false;
    }
  }

  lemma MulMonotone(k: int, a: int, b: int)
    requires k >= 0 && a <= b
    ensures k * a <= k * b
  {
    assert k * b - k * a == k * (b - a);
  }

  /** `copies` times `n`, as repeated addition. The processed count grows by
      whole seasons and whole modes, and this form lets each step of it be
      one unfolding. */
  function Times(n: nat, copies: nat): nat
    decreases copies
  {
    if copies == 0 then 0 else Times(n, copies - 1) + n
  }

  /** Repeated addition is multiplication. */
  lemma {:induction false} TimesIsProduct(n: nat, copies: nat)
    ensures Times(n, copies) == n * copies
    decreases copies
  {
    if copies > 0 {
      TimesIsProduct(n, copies - 1);
      assert n * copies == n * (copies - 1) + n;
    }
  }

  lemma {:induction false} TimesMonotoneCopies(n: nat, a: nat, b: nat)
    requires a <= b
    ensures Times(n, a) <= Times(n, b)
    decreases b
  {
    if a < b {
      TimesMonotoneCopies(n, a, b - 1);
    }
  }

  lemma {:induction false} TimesMonotoneValue(m: nat, n: nat, copies: nat)
    requires m <= n
    ensures Times(m, copies) <= Times(n, copies)
    decreases copies
  {
    if copies > 0 {
      TimesMonotoneValue(m, n, copies - 1);
    }
  }

  lemma {:induction false} TimesAddValue(a: nat, b: nat, copies: nat)
    ensures Times(a + b, copies) == Times(a, copies) + Times(b, copies)
    decreases copies
  {
    if copies > 0 {
      TimesAddValue(a, b, copies - 1);
    }
  }

  /** The episodes counted for modes already done plus one count per required
      mode fit within one count per configured mode. */
  lemma CountsFit(required: nat, modeCount: nat, n: nat)
    requires required <= modeCount
    ensures (if modeCount != required then n else 0) + Times(n, required) <= Times(n, Max1(modeCount))
  {
    if modeCount != required {
      assert Times(n, required + 1) == Times(n, required) + n;
      TimesMonotoneCopies(n, required + 1, Max1(modeCount));
    } else {
      TimesMonotoneCopies(n, required, Max1(modeCount));
    }
  }

  /** Reports added after `t` never exceed the final percentage. */
  ghost predicate ReportsBounded(t: Tally, r: Tally, denominator: nat)
    requires denominator > 0
  {
    |t.reports| <= |r.reports| && r.reports[..|t.reports|] == t.reports &&
    forall i :: |t.reports| <= i < |r.reports| ==> 0 <= r.reports[i] <= r.processed * 100 / denominator
  }

  lemma ReportsBoundedTrans(a: Tally, b: Tally, c: Tally, denominator: nat)
    requires denominator > 0
    requires ReportsBounded(a, b, denominator) && ReportsBounded(b, c, denominator)
    requires b.processed <= c.processed
    ensures ReportsBounded(a, c, denominator)
  {
    assert c.reports[..|a.reports|] == c.reports[..|b.reports|][..|a.reports|];
    forall i | |a.reports| <= i < |b.reports| ensures 0 <= c.reports[i] <= c.processed * 100 / denominator {
      assert c.reports[i] == b.reports[i];
      DivMonotone(b.processed * 100, c.processed * 100, denominator);
    }
  }

  function Max1(n: nat): (m: nat)
    ensures m >= 1 && m >= n
  {
    if n == 0 then 1 else n
  }

  // ---------------------------------------------------------------------
  // Multi-mode season step
  // ---------------------------------------------------------------------

  /** Runs the required modes one after another, adding each mode's count and
      reporting after it. A fingerprint exception ends the loop; the modes
      after it are not run. */
  function RunModes(env: Env, t: Tally, verified: seq<QueuedEpisode>, modes: seq<Mode>, denominator: nat): (r: Tally)
    requires |verified| > 0 && denominator > 0
    ensures t.processed <= r.processed <= t.processed + Times(|verified|, |modes|)
    ensures ReportsBounded(t, r, denominator)
    ensures |modes| == 0 ==> r == t
    ensures |t.calls| <= |r.calls| && r.calls[..|t.calls|] == t.calls
    decreases |modes|
  {
    if |modes| == 0 then t
    else
      match AnalyzeModeItems(env, verified, modes[0], t.store)
      case Failed(st, calls) => t.(store := st, calls := t.calls + calls)
      case Analyzed(count, st, calls) =>
        var next := Report(Tally(t.processed + count, t.reports, st, t.calls + calls), denominator);
        var r := RunModes(env, next, verified, modes[1..], denominator);
        assert ReportsBounded(t, next, denominator);
        ReportsBoundedTrans(t, next, r, denominator);
        assert r.calls[..|t.calls|] == r.calls[..|next.calls|][..|t.calls|];
        r
  }

  /** One season in the multi-mode analyzer, given its re-checked episodes
      and the modes still required. A season with no episode left does
      nothing. With no mode required it counts its episodes once and reports.
      When fewer modes are required than configured, the episodes are counted
      once for the modes already done. A cancellation seen at this point ends
      the season without running anything or reporting again; otherwise each
      required mode runs and a final report follows. */
  function SeasonStep(env: Env, t: Tally, verified: seq<QueuedEpisode>, required: seq<Mode>,
                      modeCount: nat, denominator: nat, cancelled: bool): (r: Tally)
    requires denominator > 0
    ensures |verified| == 0 ==> r == t
    ensures |verified| > 0 && |required| == 0 ==>
      r.processed == t.processed + |verified| && r.store == t.store && r.calls == t.calls &&
      |r.reports| == |t.reports| + 1
    ensures cancelled || |required| == 0 ==> r.store == t.store && r.calls == t.calls
    ensures cancelled && |verified| > 0 && |required| > 0 ==>
      r.processed == t.processed + (if modeCount != |required| then |verified| else 0)
    ensures t.processed <= r.processed
  {
    if |verified| == 0 then t
    else if |required| == 0 then
      Report(t.(processed := t.processed + |verified|), denominator)
    else
      var partial := PartialCount(t, verified, required, modeCount, denominator);
      if cancelled then partial
      else Report(RunModes(env, partial, verified, required, denominator), denominator)
  }

  /** The count for the modes that were already done, when fewer modes are
      required than configured. */
  function PartialCount(t: Tally, verified: seq<QueuedEpisode>, required: seq<Mode>,
                        modeCount: nat, denominator: nat): (r: Tally)
    requires denominator > 0
    ensures r.store == t.store && r.calls == t.calls
    ensures r.processed == t.processed + (if modeCount != |required| then |verified| else 0)
    ensures ReportsBounded(t, r, denominator)
  {
    if modeCount != |required| then Report(t.(processed := t.processed + |verified|), denominator) else t
  }

  /** Running the required modes deletes no stored result, and keeps every
      result the first mode's run merged in. */
  lemma {:induction false} RunModesKeeps(env: Env, t: Tally, verified: seq<QueuedEpisode>, modes: seq<Mode>, denominator: nat)
    requires Merges(env.analyze)
    requires |verified| > 0 && denominator > 0
    ensures KeepsIds(t.store, RunModes(env, t, verified, modes, denominator).store)
    ensures |modes| > 0 ==>
      KeepsIds(AnalyzeModeItems(env, verified, modes[0], t.store).store, RunModes(env, t, verified, modes, denominator).store)
    decreases |modes|
  {
    if |modes| > 0 {
      var first := AnalyzeModeItems(env, verified, modes[0], t.store);
      AnalyzeModeItemsKeeps(env, verified, modes[0], t.store);
      if first.Analyzed? {
        var next := Report(Tally(t.processed + first.count, t.reports, first.store, t.calls + first.calls), denominator);
        RunModesKeeps(env, next, verified, modes[1..], denominator);
      }
    }
  }

  /** A season deletes no stored result, and one that runs its modes keeps
      every result its first required mode merged in. */
  lemma SeasonStepKeeps(env: Env, t: Tally, verified: seq<QueuedEpisode>, required: seq<Mode>,
                        modeCount: nat, denominator: nat, cancelled: bool)
    requires Merges(env.analyze)
    requires denominator > 0
    ensures KeepsIds(t.store, SeasonStep(env, t, verified, required, modeCount, denominator, cancelled).store)
    ensures |verified| > 0 && |required| > 0 && !cancelled ==>
      KeepsIds(AnalyzeModeItems(env, verified, required[0], t.store).store,
               SeasonStep(env, t, verified, required, modeCount, denominator, cancelled).store)
  {
    if |verified| > 0 && |required| > 0 && !cancelled {
      var partial := PartialCount(t, verified, required, modeCount, denominator);
      RunModesKeeps(env, partial, verified, required, denominator);
    }
  }

  /** A season adds at most one count per configured mode for each of its
      episodes. */
  lemma SeasonStepProcessedBound(env: Env, t: Tally, verified: seq<QueuedEpisode>, required: seq<Mode>,
                                 modeCount: nat, denominator: nat, cancelled: bool)
    requires denominator > 0
    requires |required| <= modeCount
    ensures SeasonStep(env, t, verified, required, modeCount, denominator, cancelled).processed <=
      t.processed + Times(|verified|, Max1(modeCount))
  {
    CountsFit(|required|, modeCount, |verified|);
    if |verified| > 0 && |required| > 0 && !cancelled {
      var partial := PartialCount(t, verified, required, modeCount, denominator);
      var ran := RunModes(env, partial, verified, required, denominator);
    }
  }

  /** A season adds at most one count per configured mode for each episode
      queued for it, however many of them are still there when it runs. */
  lemma SeasonStepWithinBudget(env: Env, t: Tally, verified: seq<QueuedEpisode>, required: seq<Mode>,
                               modeCount: nat, denominator: nat, cancelled: bool, episodes: nat)
    requires denominator > 0
    requires |required| <= modeCount && |verified| <= episodes
    ensures SeasonStep(env, t, verified, required, modeCount, denominator, cancelled).processed <=
      t.processed + Times(episodes, Max1(modeCount))
  {
    SeasonStepProcessedBound(env, t, verified, required, modeCount, denominator, cancelled);
    TimesMonotoneValue(|verified|, episodes, Max1(modeCount));
  }

  /** One count per configured mode for every episode of the seasons. */
  function Budget(seasons: seq<Season>, modeCount: nat): nat
    decreases |seasons|
  {
    if |seasons| == 0 then 0
    else Budget(seasons[..|seasons| - 1], modeCount) + Times(|seasons[|seasons| - 1].episodes|, Max1(modeCount))
  }

  /** The budget of the whole queue is the queued count times the number of
      configured modes (at least one). */
  lemma {:induction false} BudgetIsTotal(seasons: seq<Season>, modeCount: nat)
    ensures Budget(seasons, modeCount) == Times(Count(seasons), Max1(modeCount))
    decreases |seasons|
  {
    if |seasons| > 0 {
      var init := seasons[..|seasons| - 1];
      BudgetIsTotal(init, modeCount);
      assert Count(seasons) == Count(init) + |seasons[|seasons| - 1].episodes|;
      TimesAddValue(Count(init), |seasons[|seasons| - 1].episodes|, Max1(modeCount));
    } else {
      TimesIsProduct(0, Max1(modeCount));
    }
  }

  /** Every progress value a season reports is at most the final one. */
  lemma SeasonStepReportsBounded(env: Env, t: Tally, verified: seq<QueuedEpisode>, required: seq<Mode>,
                                 modeCount: nat, denominator: nat, cancelled: bool)
    requires denominator > 0
    ensures ReportsBounded(t, SeasonStep(env, t, verified, required, modeCount, denominator, cancelled), denominator)
  {
    var r := SeasonStep(env, t, verified, required, modeCount, denominator, cancelled);
    if |verified| > 0 && |required| > 0 {
      var partial := PartialCount(t, verified, required, modeCount, denominator);
      if !cancelled {
        var ran := RunModes(env, partial, verified, required, denominator);
        ReportsBoundedTrans(t, partial, ran, denominator);
        ReportsBoundedTrans(t, ran, r, denominator);
      }
    }
  }

  /** The progress value as the program computes it: processed episodes
      against queued episodes, although each episode is processed once per
      mode. */
  function ProgressAsWritten(processed: nat, totalQueued: nat): int
    requires totalQueued > 0
  {
    processed * 100 / totalQueued
  }

  /** The denominator that keeps progress a percentage: every queued episode
      can be processed once per configured mode. */
  function ProgressDenominator(totalQueued: nat, modeCount: nat): (d: nat)
    requires totalQueued > 0
    ensures d >= totalQueued && d > 0
    ensures d == totalQueued * Max1(modeCount)
  {
    TimesIsProduct(totalQueued, Max1(modeCount));
    TimesMonotoneCopies(totalQueued, 1, Max1(modeCount));
    Times(totalQueued, Max1(modeCount))
  }

  /** The analyzer that resolves every episode at once. */
  function ResolveAll(s: Stage, items: seq<QueuedEpisode>, mode: Mode, store: Store): Outcome
  {
    Resolved([], store)
  }

  /** A chain whose abstract analyzers resolve everything never throws. */
  lemma {:induction false} ResolveAllChain(env: Env, stages: seq<Stage>, items: seq<QueuedEpisode>, mode: Mode, store: Store)
    requires env.analyze == ResolveAll
    requires BlackFrameStage in stages ==> mode == Credits
    ensures RunChain(env, stages, items, mode, store).outcome.Resolved?
    decreases |stages|
  {
    if |stages| > 0 {
      assert stages[0] in stages;
      assert BlackFrameStage in stages[1..] ==> BlackFrameStage in stages;
      var first := RunStage(env, stages[0], items, mode, store);
      if stages[0] != BlackFrameStage {
        assert first == ResolveAll(stages[0], items, mode, store);
      }
      ResolveAllChain(env, stages[1..], first.remaining, mode, first.store);
    }
  }

  /** With analyzers that resolve everything, a regular season is counted
      once in full for every mode that runs. */
  lemma {:induction false} RunModesCountsEveryMode(env: Env, t: Tally, verified: seq<QueuedEpisode>,
                                                   modes: seq<Mode>, denominator: nat)
    requires env.analyze == ResolveAll
    requires |verified| > 0 && verified[0].seasonNumber != 0 && denominator > 0
    ensures RunModes(env, t, verified, modes, denominator).processed == t.processed + Times(|verified|, |modes|)
    decreases |modes|
  {
    if |modes| > 0 {
      var run := AnalyzeModeItems(env, verified, modes[0], t.store);
      ResolveAllChain(env, ChainFor(modes[0]), verified, modes[0], t.store);
      assert run.Analyzed? && run.count == |verified|;
      var next := Report(Tally(t.processed + run.count, t.reports, run.store, t.calls + run.calls), denominator);
      assert RunModes(env, t, verified, modes, denominator) == RunModes(env, next, verified, modes[1..], denominator);
      RunModesCountsEveryMode(env, next, verified, modes[1..], denominator);
      assert Times(|verified|, |modes|) == Times(|verified|, |modes[1..]|) + |verified|;
    }
  }

  /** With both modes configured and one queued episode that needs both, the
      progress the program reports reaches 200. */
  lemma ProgressAsWrittenExceeds100(env: Env, ep: QueuedEpisode, store: Store)
    requires env.analyze == ResolveAll && ep.seasonNumber != 0
    ensures var r := SeasonStep(env, Tally(0, [], store, []), [ep], [Introduction, Credits], 2, 1, false);
      r.processed == 2 && r.reports[|r.reports| - 1] == ProgressAsWritten(r.processed, 1) == 200
  {
    var t := Tally(0, [], store, []);
    var modes := [Introduction, Credits];
    RunModesCountsEveryMode(env, t, [ep], modes, 1);
    var ran := RunModes(env, t, [ep], modes, 1);
    assert Times(1, 2) == 2;
    assert SeasonStep(env, t, [ep], modes, 2, 1, false) == Report(ran, 1);
  }

  /** One season of the multi-mode analyzer, as its loop over the queue sees
      it: the season keeps within its budget, bounds its reports, leaves the
      store alone when cancelled, and deletes no stored result. */
  method StepSeason(env: Env, t: Tally, verified: seq<QueuedEpisode>, required: seq<Mode>,
                    modeCount: nat, denominator: nat, cancelled: bool, episodes: nat) returns (next: Tally)
    requires denominator > 0
    requires |required| <= modeCount && |verified| <= episodes
    ensures t.processed <= next.processed <= t.processed + Times(episodes, Max1(modeCount))
    ensures ReportsBounded(t, next, denominator)
    ensures cancelled ==> next.store == t.store && next.calls == t.calls
    ensures Merges(env.analyze) ==> KeepsIds(t.store, next.store)
  {
    next := SeasonStep(env, t, verified, required, modeCount, denominator, cancelled);
    SeasonStepWithinBudget(env, t, verified, required, modeCount, denominator, cancelled, episodes);
    SeasonStepReportsBounded(env, t, verified, required, modeCount, denominator, cancelled);
    if Merges(env.analyze) {
      SeasonStepKeeps(env, t, verified, required, modeCount, denominator, cancelled);
    }
  }

  /** The multi-mode analyzer over a queue. It fails when nothing is
      queued. Otherwise each season is re-checked against the current store
      and stepped; seasons from `cancelAt` on observe the cancellation. Every
      reported progress value lies between 0 and 100. */
  method AnalyzeQueue(cfg: Config, analyze: StageAnalyzer, detect: Detector, queue: seq<Season>, modes: seq<Mode>,
                      store: Store, lookup: Guid -> PathLookup, cancelAt: nat, cutAt: nat) returns (r: Result<Tally, Error>)
    ensures r.Failure? <==> Count(queue) == 0
    ensures r.Failure? ==> r.error == FingerprintError
    ensures r.Success? ==> forall i :: 0 <= i < |r.value.reports| ==> 0 <= r.value.reports[i] <= 100
    ensures r.Success? ==> r.value.processed <= ProgressDenominator(Count(queue), |modes|)
    ensures r.Success? && cancelAt == 0 ==> r.value.store == store && r.value.calls == []
    ensures r.Success? && Merges(analyze) ==> KeepsIds(store, r.value.store)
  {
    var totalQueued := Count(queue);
    if totalQueued == 0 {
      return Failure(FingerprintError);
    }
    var denominator := ProgressDenominator(totalQueued, |modes|);
    var t := Tally(0, [], store, []);
    var i := 0;
    while i < |queue|
      invariant 0 <= i <= |queue|
      invariant t.processed <= Budget(queue[..i], |modes|)
      invariant ReportsBounded(Tally(0, [], store, []), t, denominator)
      invariant cancelAt == 0 ==> t.store == store && t.calls == []
      invariant Merges(analyze) ==> KeepsIds(store, t.store)
    {
      var env := SeasonEnv(cfg, analyze, detect, i, cancelAt, cutAt);
      var verified, required := VerifyQueue(queue[i].episodes, modes, t.store, lookup);
      DistinctWithin(required, modes);
      var next := StepSeason(env, t, verified, required, |modes|, denominator, i >= cancelAt, |queue[i].episodes|);
      assert queue[..i + 1][..i] == queue[..i];
      ReportsBoundedTrans(Tally(0, [], store, []), t, next, denominator);
      t := next;
      i := i + 1;
    }
    assert queue[..i] == queue;
    BudgetIsTotal(queue, |modes|);
    PercentAtMost100(t.processed, denominator);
    r := Success(t);
  }

  // ---------------------------------------------------------------------
  // Single-mode task
  // ---------------------------------------------------------------------

  /** One season in the single-mode task. A season with no episode left, one
      whose episodes all have results, and one that observes cancellation do
      nothing and report nothing. Otherwise the mode's chain runs, its count
      is added unless a fingerprint exception escaped, and progress is
      reported. */
  function TaskSeasonStep(env: Env, t: Tally, verified: seq<QueuedEpisode>, unanalyzed: bool,
                          mode: Mode, denominator: nat, cancelled: bool): (r: Tally)
    requires denominator > 0
    ensures |verified| == 0 || !unanalyzed || cancelled ==> r == t
    ensures t.processed <= r.processed <= t.processed + |verified|
    ensures |verified| > 0 && unanalyzed && !cancelled ==> |r.reports| == |t.reports| + 1
    ensures ReportsBounded(t, r, denominator)
    ensures |verified| > 0 && unanalyzed && !cancelled && SkipsSpecials(verified, env.cfg) ==>
      r.processed == t.processed && r.store == t.store
    ensures |verified| > 0 && unanalyzed && !cancelled && !SkipsSpecials(verified, env.cfg) ==>
      var run := RunChain(env, ChainFor(mode), verified, mode, t.store);
      && r.processed == t.processed + (if run.outcome.Resolved? then |verified| else 0)
      && r.store == run.outcome.store
  {
    if |verified| == 0 || !unanalyzed || cancelled then t
    else
      match AnalyzeModeItems(env, verified, mode, t.store)
      case Failed(st, calls) => Report(t.(store := st, calls := t.calls + calls), denominator)
      case Analyzed(count, st, calls) =>
        Report(Tally(t.processed + count, t.reports, st, t.calls + calls), denominator)
  }

  /** One season of the single-mode task, as its loop over the queue sees it:
      the season adds at most its episodes, bounds its reports, changes
      nothing when cancelled, and deletes no stored result. */
  method StepTaskSeason(env: Env, t: Tally, verified: seq<QueuedEpisode>, unanalyzed: bool,
                        mode: Mode, denominator: nat, cancelled: bool) returns (next: Tally)
    requires denominator > 0
    ensures t.processed <= next.processed <= t.processed + |verified|
    ensures ReportsBounded(t, next, denominator)
    ensures cancelled ==> next == t
    ensures Merges(env.analyze) ==> KeepsIds(t.store, next.store)
  {
    next := TaskSeasonStep(env, t, verified, unanalyzed, mode, denominator, cancelled);
    if Merges(env.analyze) && |verified| > 0 && unanalyzed && !cancelled && !SkipsSpecials(verified, env.cfg) {
      ChainKeeps(env, ChainFor(mode), verified, mode, t.store);
    }
  }

  /** The single-mode task over a queue. It fails when nothing is
      queued; otherwise each season is re-checked for the scheduled task's mode and
      stepped. Each season adds at most its episode count, so the processed
      count never exceeds the queued count and progress stays within 0..100. */
  method TaskAnalyzeQueue(cfg: Config, analyze: StageAnalyzer, detect: Detector, queue: seq<Season>, mode: Mode,
                          store: Store, lookup: Guid -> PathLookup, cancelAt: nat, cutAt: nat) returns (r: Result<Tally, Error>)
    ensures r.Failure? <==> Count(queue) == 0
    ensures r.Failure? ==> r.error == FingerprintError
    ensures r.Success? ==> r.value.processed <= Count(queue)
    ensures r.Success? ==> forall i :: 0 <= i < |r.value.reports| ==> 0 <= r.value.reports[i] <= 100
    ensures r.Success? && cancelAt == 0 ==> r.value == Tally(0, [], store, [])
    ensures r.Success? && Merges(analyze) ==> KeepsIds(store, r.value.store)
  {
    var totalQueued := Count(queue);
    if totalQueued == 0 {
      return Failure(FingerprintError);
    }
    var t := Tally(0, [], store, []);
    var i := 0;
    while i < |queue|
      invariant 0 <= i <= |queue|
      invariant t.processed <= Count(queue[..i])
      invariant ReportsBounded(Tally(0, [], store, []), t, totalQueued)
      invariant cancelAt == 0 ==> t == Tally(0, [], store, [])
      invariant Merges(analyze) ==> KeepsIds(store, t.store)
    {
      var env := SeasonEnv(cfg, analyze, detect, i, cancelAt, cutAt);
      var verified, required := VerifyQueue(queue[i].episodes, [mode], t.store, lookup);
      var next := StepTaskSeason(env, t, verified, |required| > 0, mode, totalQueued, i >= cancelAt);
      ReportsBoundedTrans(Tally(0, [], store, []), t, next, totalQueued);
      assert queue[..i + 1][..i] == queue[..i];
      t := next;
      i := i + 1;
    }
    assert queue[..i] == queue;
    PercentAtMost100(t.processed, totalQueued);
    r := Success(t);
  }

  // ---------------------------------------------------------------------
  // Entry points: scan the library, then analyze the queue
  // ---------------------------------------------------------------------

  /** The multi-mode analyzer as the plugin runs it: it first asks its queue
      manager, whose queue persists between runs, for the media items, which
      fails without ffmpeg, and then analyzes the queue the scan leaves. */
  method AnalyzeItems(queueState: QueueState, ffmpegAvailable: bool, folders: seq<Folder>,
                      cfg: Config, analyze: StageAnalyzer, detect: Detector, modes: seq<Mode>, store: Store,
                      lookup: Guid -> PathLookup, cancelAt: nat, cutAt: nat)
    returns (r: Result<Tally, Error>, queued: QueueState)
    ensures !ffmpegAvailable ==> queued == queueState
    ensures ffmpegAvailable ==> queued == GetMediaItems(queueState, true, cfg, folders).value
    ensures r.Failure? <==> !ffmpegAvailable || Count(queued.seasons) == 0
    ensures r.Failure? ==> r.error == FingerprintError
    ensures r.Success? ==> forall i :: 0 <= i < |r.value.reports| ==> 0 <= r.value.reports[i] <= 100
    ensures r.Success? ==> r.value.processed <= ProgressDenominator(Count(queued.seasons), |modes|)
    ensures r.Success? && cancelAt == 0 ==> r.value.store == store && r.value.calls == []
    ensures r.Success? && Merges(analyze) ==> KeepsIds(store, r.value.store)
  {
    var scan := GetMediaItems(queueState, ffmpegAvailable, cfg, folders);
    if scan.Failure? {
      return Failure(scan.error), queueState;
    }
    queued := scan.value;
    r := AnalyzeQueue(cfg, analyze, detect, queued.seasons, modes, store, lookup, cancelAt, cutAt);
  }

  /** The single-mode task as the plugin runs it: it creates a fresh queue
      manager, so the queue it analyzes is exactly what one scan finds, and a
      missing ffmpeg fails the run before anything is analyzed. */
  method TaskAnalyzeItems(ffmpegAvailable: bool, folders: seq<Folder>,
                          cfg: Config, analyze: StageAnalyzer, detect: Detector, mode: Mode, store: Store,
                          lookup: Guid -> PathLookup, cancelAt: nat, cutAt: nat)
    returns (r: Result<Tally, Error>, queued: QueueState)
    ensures !ffmpegAvailable ==> queued == QueueState([], 0)
    ensures ffmpegAvailable ==> queued == GetMediaItems(QueueState([], 0), true, cfg, folders).value
    ensures r.Failure? <==> !ffmpegAvailable || Count(queued.seasons) == 0
    ensures r.Failure? ==> r.error == FingerprintError
    ensures r.Success? ==> r.value.processed <= Count(queued.seasons)
    ensures r.Success? ==> forall i :: 0 <= i < |r.value.reports| ==> 0 <= r.value.reports[i] <= 100
    ensures r.Success? && cancelAt == 0 ==> r.value == Tally(0, [], store, [])
    ensures r.Success? && Merges(analyze) ==> KeepsIds(store, r.value.store)
  {
    var scan := GetMediaItems(QueueState([], 0), ffmpegAvailable, cfg, folders);
    if scan.Failure? {
      return Failure(scan.error), QueueState([], 0);
    }
    queued := scan.value;
    r := TaskAnalyzeQueue(cfg, analyze, detect, queued.seasons, mode, store, lookup, cancelAt, cutAt);
  }
}

=== FILE: queue_manager.dfy ===
/** Building the analysis queue: which libraries are scanned, the fingerprint
    bounds derived for each episode, the rule that an episode is queued once
    per season, and the re-check of a season's queue before it is analyzed.
    The library manager is an ordered list of folders and episodes; the file
    system and the ffmpeg version check are parameters. */
module QueueManager {
  import opened Common
  import opened Data
  import opened Store

  // ---------------------------------------------------------------------
  // Library selection setting
  // ---------------------------------------------------------------------

  /** `char.IsWhiteSpace`: the Unicode space, line and paragraph separators
      and the control characters tab through carriage return and next-line. */
  predicate IsWhiteSpace(c: char)
  {
    c == ' ' || ('\t' <= c <= '\r') || c == '\U{0085}' || c == '\U{00A0}' || c == '\U{1680}' ||
    ('\U{2000}' <= c <= '\U{200A}') || c == '\U{2028}' || c == '\U{2029}' || c == '\U{202F}' ||
    c == '\U{205F}' || c == '\U{3000}'
  }

  /** `s` with its leading white space removed. */
  function TrimStart(s: string): (r: string)
    ensures |r| <= |s| && r == s[|s| - |r|..]
    ensures forall i :: 0 <= i < |s| - |r| ==> IsWhiteSpace(s[i])
    ensures |r| > 0 ==> !IsWhiteSpace(r[0])
    decreases |s|
  {
    if |s| > 0 && IsWhiteSpace(s[0]) then TrimStart(s[1..]) else s
  }

  /** `s` with its trailing white space removed. */
  function TrimEnd(s: string): (r: string)
    ensures |r| <= |s| && r == s[..|r|]
    ensures forall i :: |r| <= i < |s| ==> IsWhiteSpace(s[i])
    ensures |r| > 0 ==> !IsWhiteSpace(r[|r| - 1])
    decreases |s|
  {
    if |s| > 0 && IsWhiteSpace(s[|s| - 1]) then TrimEnd(s[..|s| - 1]) else s
  }

  /** No white space at either end. */
  predicate Trimmed(s: string)
  {
    |s| == 0 || (!IsWhiteSpace(s[0]) && !IsWhiteSpace(s[|s| - 1]))
  }

  /** `r` is `s[i..]` cut to length `|r|`, and only white space lies outside it. */
  predicate InnerPart(s: string, r: string, i: int)
  {
    && 0 <= i <= |s| - |r| && r == s[i..i + |r|]
    && (forall k :: 0 <= k < i ==> IsWhiteSpace(s[k]))
    && (forall k :: i + |r| <= k < |s| ==> IsWhiteSpace(s[k]))
  }

  /** `string.Trim`: the middle of `s` left after removing white space from
      both ends; everything removed was white space and the result has none
      at either end. */
  function Trim(s: string): (r: string)
    ensures Trimmed(r)
    ensures exists i :: InnerPart(s, r, i)
  {
    var t := TrimStart(s);
    var r := TrimEnd(t);
    InnerPartOfPrefix(s, t, r);
    TrimmedOfPrefix(t, r);
    r
  }

  /** A prefix `r` of a suffix `t` of `s`, with only white space cut off
      either way, is an inner part of `s`. */
  lemma InnerPartOfPrefix(s: string, t: string, r: string)
    requires |t| <= |s| && t == s[|s| - |t|..]
    requires forall i :: 0 <= i < |s| - |t| ==> IsWhiteSpace(s[i])
    requires |r| <= |t| && r == t[..|r|]
    requires forall i :: |r| <= i < |t| ==> IsWhiteSpace(t[i])
    ensures InnerPart(s, r, |s| - |t|)
  {
    var i := |s| - |t|;
    assert r == s[i..i + |r|];
    forall k | i + |r| <= k < |s| ensures IsWhiteSpace(s[k]) {
      assert s[k] == t[k - i];
    }
  }

  /** A prefix that keeps the first character of `t` and ends in a non-space
      character is trimmed when `t` does not start with white space. */
  lemma TrimmedOfPrefix(t: string, r: string)
    requires |t| > 0 ==> !IsWhiteSpace(t[0])
    requires |r| <= |t| && r == t[..|r|]
    requires |r| > 0 ==> !IsWhiteSpace(r[|r| - 1])
    ensures Trimmed(r)
  {
    if |r| > 0 {
      assert r[0] == t[0];
    }
  }

  /** Trimming only removes characters. */
  lemma TrimKeepsChars(s: string)
    ensures forall c :: c in Trim(s) ==> c in s
  {
    var r := Trim(s);
    var i :| InnerPart(s, r, i);
    InnerPartKeepsChars(s, r, i);
  }

  lemma InnerPartKeepsChars(s: string, r: string, i: int)
    requires InnerPart(s, r, i)
    ensures forall c :: c in r ==> c in s
  {
    forall c | c in r ensures c in s {
      var k :| 0 <= k < |r| && r[k] == c;
      assert r[k] == s[i + k];
    }
  }

  /** Trimming twice is trimming once. */
  lemma TrimIdempotent(s: string)
    ensures Trim(Trim(s)) == Trim(s)
  {
    var r := Trim(s);
    TrimmedIsFixed(r);
  }

  lemma TrimmedIsFixed(s: string)
    requires Trimmed(s)
    ensures Trim(s) == s
  {
    TrimStartFixed(s);
    TrimEndFixed(s);
  }

  lemma TrimStartFixed(s: string)
    requires |s| == 0 || !IsWhiteSpace(s[0])
    ensures TrimStart(s) == s
  {
  }

  lemma TrimEndFixed(s: string)
    requires |s| == 0 || !IsWhiteSpace(s[|s| - 1])
    ensures TrimEnd(s) == s
  {
  }

  /** `string.Split(sep)`: the pieces between the separators, including empty
      pieces; `n` separators always give `n + 1` pieces. */
  function Split(s: string, sep: char): (parts: seq<string>)
    ensures |parts| >= 1
    ensures forall i :: 0 <= i < |parts| ==> sep !in parts[i]
    decreases |s|
  {
    if |s| == 0 then [""]
    else
      var rest := Split(s[1..], sep);
      if s[0] == sep then [""] + rest
      else [[s[0]] + rest[0]] + rest[1..]
  }

  /** The pieces glued back together with the separator between them. */
  function Join(parts: seq<string>, sep: char): string
    requires |parts| >= 1
    decreases |parts|
  {
    if |parts| == 1 then parts[0] else parts[0] + [sep] + Join(parts[1..], sep)
  }

  /** Joining the pieces of a split gives back the original string. */
  lemma {:induction false} JoinSplit(s: string, sep: char)
    ensures Join(Split(s, sep), sep) == s
    decreases |s|
  {
    if |s| > 0 {
      JoinSplit(s[1..], sep);
      var rest := Split(s[1..], sep);
      if s[0] != sep {
        var parts := [[s[0]] + rest[0]] + rest[1..];
        if |rest| > 1 {
          assert parts[1..] == rest[1..];
          assert Join(rest, sep) == rest[0] + [sep] + Join(rest[1..], sep);
        }
      }
    }
  }

  /** Splitting a join of separator-free pieces gives back the pieces. */
  lemma {:induction false} SplitJoin(parts: seq<string>, sep: char)
    requires |parts| >= 1
    requires forall i :: 0 <= i < |parts| ==> sep !in parts[i]
    ensures Split(Join(parts, sep), sep) == parts
    decreases |parts|, |parts[0]|
  {
    var p := parts[0];
    if |p| > 0 {
      var shorter := [p[1..]] + parts[1..];
      assert forall i :: 0 <= i < |shorter| ==> sep !in shorter[i] by {
        forall i | 0 <= i < |shorter| ensures sep !in shorter[i] {
          if i == 0 {
            assert forall c :: c in p[1..] ==> c in p;
          } else {
            assert shorter[i] == parts[i];
          }
        }
      }
      SplitJoin(shorter, sep);
      var j := Join(parts, sep);
      assert Join(shorter, sep) == j[1..] by {
        if |parts| > 1 {
          assert shorter[1..] == parts[1..];
        }
      }
      assert j[0] == p[0] && p[0] != sep;
      assert [p[0]] + p[1..] == p;
      assert parts == [p] + parts[1..];
    } else if |parts| > 1 {
      SplitJoin(parts[1..], sep);
      var j := Join(parts, sep);
      assert j == [sep] + Join(parts[1..], sep);
      assert j[1..] == Join(parts[1..], sep);
      assert parts == [""] + parts[1..];
    }
  }

  predicate NonEmpty(s: string)
  {
    |s| > 0
  }

  /** Each piece trimmed. */
  function TrimAll(parts: seq<string>): (r: seq<string>)
    ensures |r| == |parts|
    ensures forall i :: 0 <= i < |parts| ==> r[i] == Trim(parts[i])
    decreases |parts|
  {
    if |parts| == 0 then [] else [Trim(parts[0])] + TrimAll(parts[1..])
  }

  /** The library names of the `SelectedLibraries` setting: split at commas,
      each piece trimmed, empty pieces dropped, order kept. */
  function ParseSelectedLibraries(setting: string): (names: seq<string>)
    ensures forall i :: 0 <= i < |names| ==> NonEmpty(names[i]) && Trimmed(names[i])
    ensures IsSublist(names, TrimAll(Split(setting, ',')))
  {
    var trimmed := TrimAll(Split(setting, ','));
    FilterIsSublist(trimmed, NonEmpty);
    Filter(trimmed, NonEmpty)
  }

  /** Every non-blank piece of the setting is selected, trimmed, and every
      selected name is such a piece; no name contains a comma. */
  lemma ParseSelectedLibrariesComplete(setting: string)
    ensures var parts := Split(setting, ','); var names := ParseSelectedLibraries(setting);
      forall i :: 0 <= i < |parts| && NonEmpty(Trim(parts[i])) ==> Trim(parts[i]) in names
    ensures var parts := Split(setting, ','); var names := ParseSelectedLibraries(setting);
      forall n :: n in names ==> ',' !in n && exists i :: 0 <= i < |parts| && n == Trim(parts[i])
  {
    var parts := Split(setting, ',');
    var trimmed := TrimAll(parts);
    var names := ParseSelectedLibraries(setting);
    assert names == Filter(trimmed, NonEmpty);
    forall i | 0 <= i < |parts| && NonEmpty(Trim(parts[i])) ensures Trim(parts[i]) in names {
      assert trimmed[i] == Trim(parts[i]);
    }
    forall n | n in names ensures ',' !in n && exists i :: 0 <= i < |parts| && n == Trim(parts[i]) {
      var j :| 0 <= j < |names| && names[j] == n;
      var i :| 0 <= i < |trimmed| && trimmed[i] == n;
      TrimKeepsChars(parts[i]);
      assert n == Trim(parts[i]);
    }
  }

  /** A library is scanned when no library was selected or it was selected by name. */
  predicate LibrarySelected(selected: seq<string>, name: string)
  {
    |selected| == 0 || name in selected
  }

  lemma TrimVectorBlank()
    ensures Trim(" ") == ""
  {
    assert TrimStart(" ") == "";
  }

  lemma TrimVectorPlain()
    ensures Trim("Anime") == "Anime"
  {
    assert TrimStart("Anime") == "Anime";
    assert TrimEnd("Anime") == "Anime";
  }

  /** An empty setting selects no library, so every library is scanned. */
  lemma ParseEmptySetting()
    ensures ParseSelectedLibraries("") == []
  {
    assert Split("", ',') == [""];
    assert Trim("") == "";
  }

  // ---------------------------------------------------------------------
  // Per-episode fingerprint bounds
  // ---------------------------------------------------------------------

  /** An episode as the library manager returns it. A missing run time counts
      as zero seconds. */
  datatype Episode = Episode(
    id: Guid,
    seasonId: Guid,
    seriesName: string,
    name: string,
    path: Option<string>,
    airedSeasonNumber: Option<int>,
    runTimeSeconds: Option<real>)

  function RunTime(ep: Episode): real
  {
    if ep.runTimeSeconds.Some? then ep.runTimeSeconds.value else 0.0
  }

  /** Seconds of the start of an episode that the introduction fingerprint
      covers: the configured percentage for episodes of five minutes or more,
      the whole episode otherwise, and never more than the configured number
      of minutes. */
  function FingerprintWindow(duration: real, analysisPercent: int, analysisLengthLimit: int): (w: real)
    ensures w <= (60 * analysisLengthLimit) as real
    ensures w <= (if duration >= 300.0 then duration * (analysisPercent as real / 100.0) else duration)
    ensures w == (60 * analysisLengthLimit) as real ||
            (duration >= 300.0 && w == duration * (analysisPercent as real / 100.0)) ||
            (duration < 300.0 && w == duration)
  {
    var scaled := if duration >= 300.0 then duration * (analysisPercent as real / 100.0) else duration;
    if scaled <= (60 * analysisLengthLimit) as real then scaled else (60 * analysisLengthLimit) as real
  }

  /** With a percentage between 0 and 100 and non-negative settings, the
      window lies within the episode. */
  lemma FingerprintWindowWithinEpisode(duration: real, analysisPercent: int, analysisLengthLimit: int)
    requires 0.0 <= duration && 0 <= analysisPercent <= 100 && 0 <= analysisLengthLimit
    ensures 0.0 <= FingerprintWindow(duration, analysisPercent, analysisLengthLimit) <= duration
  {
    var fraction := analysisPercent as real / 100.0;
    assert 0.0 <= fraction <= 1.0;
    var scaled := if duration >= 300.0 then duration * fraction else duration;
    if duration >= 300.0 {
      ScaleWithin(duration, fraction);
      assert 0.0 <= scaled <= duration;
    }
    var cap := (60 * analysisLengthLimit) as real;
    assert 0.0 <= cap;
    assert FingerprintWindow(duration, analysisPercent, analysisLengthLimit) == if scaled <= cap then scaled else cap;
  }

  lemma ScaleWithin(x: real, fraction: real)
    requires 0.0 <= x && 0.0 <= fraction <= 1.0
    ensures 0.0 <= x * fraction <= x
  {
    assert x - x * fraction == x * (1.0 - fraction);
  }

  /** The window is not monotone in the duration: one second more of episode
      can shrink it from the whole episode to a quarter of it. */
  lemma FingerprintWindowNotMonotone()
    ensures FingerprintWindow(299.0, 25, 10) == 299.0
    ensures FingerprintWindow(300.0, 25, 10) == 75.0
  {
  }

  /** The queue entry made for an episode, with both fingerprint bounds. */
  function ToQueued(ep: Episode, cfg: Config): (q: QueuedEpisode)
    requires ep.path.Some?
    ensures q.episodeId == ep.id && q.path == ep.path.value
    ensures q.duration == RunTime(ep)
    ensures q.introFingerprintEnd == FingerprintWindow(RunTime(ep), cfg.analysisPercent, cfg.analysisLengthLimit)
    ensures q.outroFingerprintStart + cfg.maximumEpisodeCreditsDuration as real == q.duration
    ensures ep.airedSeasonNumber.None? ==> q.seasonNumber == 0
    ensures ep.airedSeasonNumber.Some? ==> q.seasonNumber == ep.airedSeasonNumber.value
  {
    var duration := RunTime(ep);
    QueuedEpisode(
      ep.seriesName,
      if ep.airedSeasonNumber.Some? then ep.airedSeasonNumber.value else 0,
      ep.id,
      ep.name,
      ep.path.value,
      duration,
      FingerprintWindow(duration, cfg.analysisPercent, cfg.analysisLengthLimit),
      duration - cfg.maximumEpisodeCreditsDuration as real)
  }

  // ---------------------------------------------------------------------
  // The queue
  // ---------------------------------------------------------------------

  /** One season's queue, in the order episodes were added. */
  datatype Season = Season(seasonId: Guid, episodes: seq<QueuedEpisode>)

  /** The queue dictionary, as its seasons in insertion order, together with
      the plugin-wide count of episodes queued by the current scan. */
  datatype QueueState = QueueState(seasons: seq<Season>, totalQueued: int)

  /** Position of a season in the queue, if it has one. */
  function SeasonIndex(seasons: seq<Season>, id: Guid): (r: Option<nat>)
    ensures r.Some? ==> r.value < |seasons| && seasons[r.value].seasonId == id
    ensures r.None? <==> forall i :: 0 <= i < |seasons| ==> seasons[i].seasonId != id
    decreases |seasons|
  {
    if |seasons| == 0 then None
    else if seasons[|seasons| - 1].seasonId == id then Some(|seasons| - 1)
    else SeasonIndex(seasons[..|seasons| - 1], id)
  }

  /** The episodes queued for a season; none if the season has no entry. */
  function EpisodesOf(seasons: seq<Season>, id: Guid): seq<QueuedEpisode>
  {
    match SeasonIndex(seasons, id)
    case None => []
    case Some(i) => seasons[i].episodes
  }

  predicate HasEpisode(eps: seq<QueuedEpisode>, id: Guid)
  {
    exists k :: 0 <= k < |eps| && eps[k].episodeId == id
  }

  /** No episode id twice in one list. */
  predicate DistinctEpisodes(eps: seq<QueuedEpisode>)
  {
    forall j, k :: 0 <= j < k < |eps| ==> eps[j].episodeId != eps[k].episodeId
  }

  /** The queue's invariant: one entry per season, no season without
      episodes, and no episode twice within a season. */
  predicate WellFormed(seasons: seq<Season>)
  {
    (forall i, j :: 0 <= i < j < |seasons| ==> seasons[i].seasonId != seasons[j].seasonId) &&
    (forall i :: 0 <= i < |seasons| ==> |seasons[i].episodes| > 0 && DistinctEpisodes(seasons[i].episodes))
  }

  /** Number of queued episodes over all seasons. */
  function Count(seasons: seq<Season>): nat
    decreases |seasons|
  {
    if |seasons| == 0 then 0 else Count(seasons[..|seasons| - 1]) + |seasons[|seasons| - 1].episodes|
  }

  lemma {:induction false} CountUpdate(seasons: seq<Season>, i: nat, s: Season)
    requires i < |seasons|
    ensures Count(seasons[i := s]) == Count(seasons) - |seasons[i].episodes| + |s.episodes|
    decreases |seasons|
  {
    var n := |seasons| - 1;
    var updated := seasons[i := s];
    if i < n {
      assert updated[..n] == seasons[..n][i := s];
      CountUpdate(seasons[..n], i, s);
    } else {
      assert updated[..n] == seasons[..n];
    }
  }

  /** Every season's list in `a` is a prefix of that season's list in `b`:
      nothing was removed or reordered, at most appended. */
  ghost predicate Grows(a: seq<Season>, b: seq<Season>)
  {
    forall id :: EpisodesOf(a, id) <= EpisodesOf(b, id)
  }

  /** Queues one episode. An episode without a path is skipped; an episode
      already queued for its season is skipped; any other episode is appended
      to its season's list, creating the list for a new season, and the
      queued count goes up by one. */
  function QueueEpisode(st: QueueState, cfg: Config, ep: Episode): (r: QueueState)
    ensures ep.path.None? || ep.path.value == "" ==> r == st
    ensures HasEpisode(EpisodesOf(st.seasons, ep.seasonId), ep.id) ==> r == st
    ensures ep.path.Some? && ep.path.value != "" && !HasEpisode(EpisodesOf(st.seasons, ep.seasonId), ep.id) ==>
      EpisodesOf(r.seasons, ep.seasonId) == EpisodesOf(st.seasons, ep.seasonId) + [ToQueued(ep, cfg)] &&
      r.totalQueued == st.totalQueued + 1
    ensures forall id :: id != ep.seasonId ==> EpisodesOf(r.seasons, id) == EpisodesOf(st.seasons, id)
  {
    if ep.path.None? || ep.path.value == "" then st
    else
      var q := ToQueued(ep, cfg);
      match SeasonIndex(st.seasons, ep.seasonId)
      case None =>
        var seasons := st.seasons + [Season(ep.seasonId, [q])];
        assert seasons[..|st.seasons|] == st.seasons;
        assert SeasonIndex(seasons, ep.seasonId) == Some(|st.seasons|);
        assert forall id :: id != ep.seasonId ==> SeasonIndex(seasons, id) == SeasonIndex(st.seasons, id);
        QueueState(seasons, st.totalQueued + 1)
      case Some(i) =>
        var eps := st.seasons[i].episodes;
        if HasEpisode(eps, ep.id) then st
        else
          var seasons := st.seasons[i := Season(ep.seasonId, eps + [q])];
          SeasonIndexUpdate(st.seasons, i, eps + [q]);
          QueueState(seasons, st.totalQueued + 1)
  }

  /** Queueing an episode keeps the queue well formed, and the queued count
      moves exactly with the number of queued episodes. */
  lemma QueueEpisodeInvariants(st: QueueState, cfg: Config, ep: Episode)
    ensures WellFormed(st.seasons) ==> WellFormed(QueueEpisode(st, cfg, ep).seasons)
    ensures Count(QueueEpisode(st, cfg, ep).seasons) - Count(st.seasons) ==
      QueueEpisode(st, cfg, ep).totalQueued - st.totalQueued
  {
    if ep.path.Some? && ep.path.value != "" {
      var q := ToQueued(ep, cfg);
      match SeasonIndex(st.seasons, ep.seasonId)
      case None =>
        AddSeasonInvariants(st.seasons, Season(ep.seasonId, [q]));
      case Some(i) =>
        if !HasEpisode(st.seasons[i].episodes, ep.id) {
          ExtendSeasonInvariants(st.seasons, i, q);
        }
    }
  }

  /** A new season at the end, for an id not yet present, with one episode. */
  lemma AddSeasonInvariants(seasons: seq<Season>, s: Season)
    requires forall i :: 0 <= i < |seasons| ==> seasons[i].seasonId != s.seasonId
    requires |s.episodes| == 1
    ensures WellFormed(seasons) ==> WellFormed(seasons + [s])
    ensures Count(seasons + [s]) == Count(seasons) + 1
  {
    assert (seasons + [s])[..|seasons|] == seasons;
  }

  /** One more episode, with an id the season does not hold yet, at the end of
      season `i`. */
  lemma ExtendSeasonInvariants(seasons: seq<Season>, i: nat, q: QueuedEpisode)
    requires i < |seasons| && !HasEpisode(seasons[i].episodes, q.episodeId)
    ensures var eps := seasons[i].episodes + [q];
      && (WellFormed(seasons) ==> WellFormed(seasons[i := Season(seasons[i].seasonId, eps)]))
      && Count(seasons[i := Season(seasons[i].seasonId, eps)]) == Count(seasons) + 1
  {
    var eps := seasons[i].episodes + [q];
    CountUpdate(seasons, i, Season(seasons[i].seasonId, eps));
    if WellFormed(seasons) {
      assert DistinctEpisodes(eps);
    }
  }

  /** Replacing a season's list keeps every season at its position. */
  lemma {:induction false} SeasonIndexUpdate(seasons: seq<Season>, i: nat, eps: seq<QueuedEpisode>)
    requires i < |seasons|
    ensures forall id :: SeasonIndex(seasons[i := Season(seasons[i].seasonId, eps)], id) == SeasonIndex(seasons, id)
    decreases |seasons|
  {
    var updated := seasons[i := Season(seasons[i].seasonId, eps)];
    var n := |seasons| - 1;
    if i < n {
      assert updated[..n] == seasons[..n][i := Season(seasons[i].seasonId, eps)];
      SeasonIndexUpdate(seasons[..n], i, eps);
    } else {
      assert updated[..n] == seasons[..n];
    }
  }

  /** An episode the queue accepts: one with a non-empty path. */
  predicate HasPath(ep: Episode)
  {
    ep.path.Some? && ep.path.value != ""
  }

  /** Every episode of `eps` with a path is queued for its season. */
  predicate AllQueued(seasons: seq<Season>, eps: seq<Episode>)
  {
    forall e :: e in eps && HasPath(e) ==> HasEpisode(EpisodesOf(seasons, e.seasonId), e.id)
  }

  /** Every entry a season holds in `b` beyond what it held in `a` is the queue
      entry of an episode of `eps` that has a path and belongs to that season. */
  ghost predicate AddedFrom(a: seq<Season>, b: seq<Season>, cfg: Config, eps: seq<Episode>)
  {
    forall id, k :: |EpisodesOf(a, id)| <= k < |EpisodesOf(b, id)| ==> AddedAt(b, cfg, eps, id, k)
  }

  /** Entry `k` of a season's list in `b` is the queue entry of an episode of
      `eps` that has a path and belongs to that season. */
  ghost predicate AddedAt(b: seq<Season>, cfg: Config, eps: seq<Episode>, id: Guid, k: int)
  {
    0 <= k < |EpisodesOf(b, id)| &&
    exists e :: e in eps && HasPath(e) && e.seasonId == id && EpisodesOf(b, id)[k] == ToQueued(e, cfg)
  }

  /** Queues a list of episodes in order: afterwards every one of them with a
      path is queued for its season, and every new entry comes from one of them. */
  function QueueAll(st: QueueState, cfg: Config, eps: seq<Episode>): (r: QueueState)
    ensures WellFormed(st.seasons) ==> WellFormed(r.seasons)
    ensures Count(r.seasons) - Count(st.seasons) == r.totalQueued - st.totalQueued
    ensures Grows(st.seasons, r.seasons)
    ensures AllQueued(r.seasons, eps)
    ensures AddedFrom(st.seasons, r.seasons, cfg, eps)
    decreases |eps|
  {
    if |eps| == 0 then st
    else
      var r := QueueAll(QueueEpisode(st, cfg, eps[0]), cfg, eps[1..]);
      QueueAllStep(st, cfg, eps, r);
      r
  }

  /** One step of `QueueAll`: whatever the rest of the list does after the
      first episode is queued, the whole list keeps the same promises. */
  lemma QueueAllStep(st: QueueState, cfg: Config, eps: seq<Episode>, r: QueueState)
    requires |eps| > 0
    requires var next := QueueEpisode(st, cfg, eps[0]);
      && (WellFormed(next.seasons) ==> WellFormed(r.seasons))
      && Count(r.seasons) - Count(next.seasons) == r.totalQueued - next.totalQueued
      && Grows(next.seasons, r.seasons)
      && AllQueued(r.seasons, eps[1..])
      && AddedFrom(next.seasons, r.seasons, cfg, eps[1..])
    ensures WellFormed(st.seasons) ==> WellFormed(r.seasons)
    ensures Count(r.seasons) - Count(st.seasons) == r.totalQueued - st.totalQueued
    ensures Grows(st.seasons, r.seasons)
    ensures AllQueued(r.seasons, eps)
    ensures AddedFrom(st.seasons, r.seasons, cfg, eps)
  {
    var next := QueueEpisode(st, cfg, eps[0]);
    QueueEpisodeInvariants(st, cfg, eps[0]);
    assert Grows(st.seasons, r.seasons) by {
      assert Grows(st.seasons, next.seasons) by {
        forall id ensures EpisodesOf(st.seasons, id) <= EpisodesOf(next.seasons, id) {
        }
      }
      forall id ensures EpisodesOf(st.seasons, id) <= EpisodesOf(r.seasons, id) {
        assert EpisodesOf(st.seasons, id) <= EpisodesOf(next.seasons, id);
        assert EpisodesOf(next.seasons, id) <= EpisodesOf(r.seasons, id);
      }
    }
    assert eps == [eps[0]] + eps[1..];
    assert AllQueued(r.seasons, eps) by {
      QueueEpisodeEffect(st, cfg, eps[0]);
      AllQueuedStep(next.seasons, r.seasons, eps[0], eps[1..]);
    }
    assert AddedFrom(st.seasons, r.seasons, cfg, eps) by {
      QueueEpisodeEffect(st, cfg, eps[0]);
      AddedFromStep(st.seasons, next.seasons, r.seasons, cfg, eps[0], eps[1..]);
    }
  }

  /** A list that extends another holds every episode id the other holds. */
  lemma HasEpisodePrefix(a: seq<QueuedEpisode>, b: seq<QueuedEpisode>, id: Guid)
    requires a <= b && HasEpisode(a, id)
    ensures HasEpisode(b, id)
  {
    var k :| 0 <= k < |a| && a[k].episodeId == id;
    assert b[k] == a[k];
  }

  /** What queueing one episode does to each season's list, in terms the
      step lemmas below can use without unfolding `QueueEpisode`. */
  lemma QueueEpisodeEffect(st: QueueState, cfg: Config, e: Episode)
    ensures var next := QueueEpisode(st, cfg, e).seasons;
      && (forall id :: id != e.seasonId ==> EpisodesOf(next, id) == EpisodesOf(st.seasons, id))
      && (EpisodesOf(next, e.seasonId) == EpisodesOf(st.seasons, e.seasonId) ||
          (HasPath(e) && EpisodesOf(next, e.seasonId) == EpisodesOf(st.seasons, e.seasonId) + [ToQueued(e, cfg)]))
      && (HasPath(e) ==> HasEpisode(EpisodesOf(next, e.seasonId), e.id))
  {
    var next := QueueEpisode(st, cfg, e).seasons;
    if HasPath(e) {
      var before := EpisodesOf(st.seasons, e.seasonId);
      if !HasEpisode(before, e.id) {
        assert EpisodesOf(next, e.seasonId)[|before|].episodeId == e.id;
      }
    }
  }

  /** The first episode of a run is queued, and stays queued, so the run's
      promise about the rest extends to the whole list. */
  lemma AllQueuedStep(next: seq<Season>, r: seq<Season>, e: Episode, rest: seq<Episode>)
    requires HasPath(e) ==> HasEpisode(EpisodesOf(next, e.seasonId), e.id)
    requires Grows(next, r) && AllQueued(r, rest)
    ensures AllQueued(r, [e] + rest)
  {
    if HasPath(e) {
      HasEpisodePrefix(EpisodesOf(next, e.seasonId), EpisodesOf(r, e.seasonId), e.id);
    }
    forall x | x in [e] + rest && HasPath(x) ensures HasEpisode(EpisodesOf(r, x.seasonId), x.id) {
      if x != e {
        assert x in rest;
      }
    }
  }

  /** An entry added by the first step is the first episode's entry; any later
      one comes from the rest. */
  lemma AddedFromStep(a: seq<Season>, next: seq<Season>, r: seq<Season>, cfg: Config, e: Episode, rest: seq<Episode>)
    requires forall id :: id != e.seasonId ==> EpisodesOf(next, id) == EpisodesOf(a, id)
    requires EpisodesOf(next, e.seasonId) == EpisodesOf(a, e.seasonId) ||
             (HasPath(e) && EpisodesOf(next, e.seasonId) == EpisodesOf(a, e.seasonId) + [ToQueued(e, cfg)])
    requires Grows(next, r) && AddedFrom(next, r, cfg, rest)
    ensures AddedFrom(a, r, cfg, [e] + rest)
  {
    var all := [e] + rest;
    forall id, k | |EpisodesOf(a, id)| <= k < |EpisodesOf(r, id)| ensures AddedAt(r, cfg, all, id, k) {
      assert EpisodesOf(next, id) <= EpisodesOf(r, id);
      if k < |EpisodesOf(next, id)| {
        assert id == e.seasonId;
        assert EpisodesOf(r, id)[k] == EpisodesOf(next, id)[k];
        assert e in all;
      } else {
        assert AddedAt(r, cfg, rest, id, k);
        var x :| x in rest && HasPath(x) && x.seasonId == id && EpisodesOf(r, id)[k] == ToQueued(x, cfg);
        assert x in all;
      }
    }
  }

  /** A library folder: its name and, for each of its locations, the episodes
      the library query returns, or `None` when the location has no library
      root or the query returns nothing. */
  datatype Folder = Folder(name: string, locations: seq<Option<seq<Episode>>>)

  /** The episodes of one folder, location by location. */
  function FolderEpisodes(locations: seq<Option<seq<Episode>>>): seq<Episode>
    decreases |locations|
  {
    if |locations| == 0 then []
    else (if locations[0].Some? then locations[0].value else []) + FolderEpisodes(locations[1..])
  }

  /** The episodes a scan enqueues, in order: those of every selected folder. */
  function ScanEpisodes(selected: seq<string>, folders: seq<Folder>): seq<Episode>
    decreases |folders|
  {
    if |folders| == 0 then []
    else if !LibrarySelected(selected, folders[0].name) then ScanEpisodes(selected, folders[1..])
    else FolderEpisodes(folders[0].locations) + ScanEpisodes(selected, folders[1..])
  }

  /** Folders that are not selected contribute nothing to a scan. */
  lemma {:induction false} UnselectedFoldersIgnored(selected: seq<string>, folders: seq<Folder>, f: Folder, at: nat)
    requires at <= |folders| && !LibrarySelected(selected, f.name)
    ensures ScanEpisodes(selected, folders[..at] + [f] + folders[at..]) == ScanEpisodes(selected, folders)
    decreases at
  {
    var all := folders[..at] + [f] + folders[at..];
    if at == 0 {
      assert all[1..] == folders;
    } else {
      assert all[0] == folders[0];
      assert all[1..] == folders[1..][..at - 1] + [f] + folders[1..][at - 1..];
      UnselectedFoldersIgnored(selected, folders[1..], f, at - 1);
    }
  }

  /** With no library selected, every folder is scanned. */
  lemma {:induction false} NoSelectionScansAll(folders: seq<Folder>)
    ensures ScanEpisodes([], folders) == FolderEpisodes(Flatten(folders))
    decreases |folders|
  {
    if |folders| > 0 {
      assert LibrarySelected([], folders[0].name);
      NoSelectionScansAll(folders[1..]);
      FolderEpisodesAppend(folders[0].locations, Flatten(folders[1..]));
    }
  }

  /** All locations of all folders, in order. */
  function Flatten(folders: seq<Folder>): seq<Option<seq<Episode>>>
    decreases |folders|
  {
    if |folders| == 0 then [] else folders[0].locations + Flatten(folders[1..])
  }

  lemma {:induction false} FolderEpisodesAppend(a: seq<Option<seq<Episode>>>, b: seq<Option<seq<Episode>>>)
    ensures FolderEpisodes(a + b) == FolderEpisodes(a) + FolderEpisodes(b)
    decreases |a|
  {
    if |a| > 0 {
      assert (a + b)[0] == a[0];
      assert (a + b)[1..] == a[1..] + b;
      FolderEpisodesAppend(a[1..], b);
    } else {
      assert a + b == b;
    }
  }

  /** Some location of the list returned `e`. */
  predicate LocationsHold(locations: seq<Option<seq<Episode>>>, e: Episode)
  {
    exists j :: 0 <= j < |locations| && locations[j].Some? && e in locations[j].value
  }

  /** Some selected folder has a location that returned `e`. */
  predicate InSelectedFolder(selected: seq<string>, folders: seq<Folder>, e: Episode)
  {
    exists i :: 0 <= i < |folders| && LibrarySelected(selected, folders[i].name) && LocationsHold(folders[i].locations, e)
  }

  /** A folder's episodes are exactly those its locations returned. */
  lemma {:induction false} FolderEpisodesMembers(locations: seq<Option<seq<Episode>>>, e: Episode)
    ensures e in FolderEpisodes(locations) <==> LocationsHold(locations, e)
    decreases |locations|
  {
    if |locations| > 0 {
      var rest := locations[1..];
      FolderEpisodesMembers(rest, e);
      if LocationsHold(rest, e) {
        var j :| 0 <= j < |rest| && rest[j].Some? && e in rest[j].value;
        assert locations[j + 1] == rest[j];
      }
      if LocationsHold(locations, e) && !(locations[0].Some? && e in locations[0].value) {
        var j :| 0 <= j < |locations| && locations[j].Some? && e in locations[j].value;
        assert rest[j - 1] == locations[j];
      }
    }
  }

  /** A scan returns exactly the episodes of the selected folders' locations. */
  lemma {:induction false} ScanEpisodesMembers(selected: seq<string>, folders: seq<Folder>, e: Episode)
    ensures e in ScanEpisodes(selected, folders) <==> InSelectedFolder(selected, folders, e)
    decreases |folders|
  {
    if |folders| > 0 {
      var rest := folders[1..];
      ScanEpisodesMembers(selected, rest, e);
      FolderEpisodesMembers(folders[0].locations, e);
      if InSelectedFolder(selected, rest, e) {
        var i :| 0 <= i < |rest| && LibrarySelected(selected, rest[i].name) && LocationsHold(rest[i].locations, e);
        assert folders[i + 1] == rest[i];
      }
      if InSelectedFolder(selected, folders, e) {
        var i :| 0 <= i < |folders| && LibrarySelected(selected, folders[i].name) && LocationsHold(folders[i].locations, e);
        if i > 0 {
          assert rest[i - 1] == folders[i];
        }
      }
    }
  }

  /** After a scan, every episode with a path that a selected folder returned
      is queued for its season. */
  lemma GetMediaItemsQueuesSelected(st: QueueState, cfg: Config, folders: seq<Folder>, e: Episode)
    requires HasPath(e) && InSelectedFolder(ParseSelectedLibraries(cfg.selectedLibraries), folders, e)
    ensures HasEpisode(EpisodesOf(GetMediaItems(st, true, cfg, folders).value.seasons, e.seasonId), e.id)
  {
    ScanEpisodesMembers(ParseSelectedLibraries(cfg.selectedLibraries), folders, e);
  }

  /** Every entry a scan adds to a season is the queue entry of an episode
      with a path that a selected folder returned for that season. */
  lemma GetMediaItemsAddsOnlySelected(st: QueueState, cfg: Config, folders: seq<Folder>, id: Guid, k: int)
    requires |EpisodesOf(st.seasons, id)| <= k < |EpisodesOf(GetMediaItems(st, true, cfg, folders).value.seasons, id)|
    ensures exists e ::
      && HasPath(e) && InSelectedFolder(ParseSelectedLibraries(cfg.selectedLibraries), folders, e) && e.seasonId == id
      && EpisodesOf(GetMediaItems(st, true, cfg, folders).value.seasons, id)[k] == ToQueued(e, cfg)
  {
    var selected := ParseSelectedLibraries(cfg.selectedLibraries);
    var scanned := ScanEpisodes(selected, folders);
    var after := GetMediaItems(st, true, cfg, folders).value.seasons;
    assert AddedAt(after, cfg, scanned, id, k);
    var e :| e in scanned && HasPath(e) && e.seasonId == id && EpisodesOf(after, id)[k] == ToQueued(e, cfg);
    ScanEpisodesMembers(selected, folders, e);
  }

  /** A scan of the library. Without ffmpeg it fails before touching
      anything. Otherwise it resets the queued count, loads the selection
      setting and enqueues the episodes of the selected folders into the
      existing queue, which is not cleared first; the count therefore ends
      as the number of episodes this scan appended. */
  function GetMediaItems(st: QueueState, ffmpegAvailable: bool, cfg: Config, folders: seq<Folder>): (r: Result<QueueState, Error>)
    ensures r.Failure? <==> !ffmpegAvailable
    ensures r.Failure? ==> r.error == FingerprintError
    ensures r.Success? ==> r.value.totalQueued == Count(r.value.seasons) - Count(st.seasons)
    ensures r.Success? ==> Grows(st.seasons, r.value.seasons)
    ensures r.Success? && WellFormed(st.seasons) ==> WellFormed(r.value.seasons)
    ensures r.Success? ==> AllQueued(r.value.seasons, ScanEpisodes(ParseSelectedLibraries(cfg.selectedLibraries), folders))
    ensures r.Success? ==> AddedFrom(st.seasons, r.value.seasons, cfg, ScanEpisodes(ParseSelectedLibraries(cfg.selectedLibraries), folders))
  {
    if !ffmpegAvailable then Failure(FingerprintError)
    else
      var selected := ParseSelectedLibraries(cfg.selectedLibraries);
      Success(QueueAll(st.(totalQueued := 0), cfg, ScanEpisodes(selected, folders)))
  }

  // ---------------------------------------------------------------------
  // Re-checking a season before analysis
  // ---------------------------------------------------------------------

  /** The outcome of looking up an episode's path: the lookup throws, or it
      yields a path whose file exists or not. */
  datatype PathLookup = LookupFailed | ItemPath(fileExists: bool)

  /** A candidate survives the re-check when its path lookup succeeds and the file exists. */
  function KeepVerified(lookup: Guid -> PathLookup): QueuedEpisode -> bool
  {
    (c: QueuedEpisode) => lookup(c.episodeId) == ItemPath(true)
  }

  /** A candidate whose lookup succeeded and that has no stored result for `m`. */
  predicate Missing(c: QueuedEpisode, m: Mode, store: Store, lookup: Guid -> PathLookup)
  {
    !lookup(c.episodeId).LookupFailed? && c.episodeId !in Results(store, m)
  }

  predicate NeedsMode(cands: seq<QueuedEpisode>, m: Mode, store: Store, lookup: Guid -> PathLookup)
  {
    exists i :: 0 <= i < |cands| && Missing(cands[i], m, store, lookup)
  }

  lemma NeedsModeSnoc(cands: seq<QueuedEpisode>, c: QueuedEpisode, m: Mode, store: Store, lookup: Guid -> PathLookup)
    ensures NeedsMode(cands + [c], m, store, lookup) <==> NeedsMode(cands, m, store, lookup) || Missing(c, m, store, lookup)
  {
    var all := cands + [c];
    if NeedsMode(all, m, store, lookup) && !Missing(c, m, store, lookup) {
      var i :| 0 <= i < |all| && Missing(all[i], m, store, lookup);
      assert all[i] == cands[i];
    }
    if NeedsMode(cands, m, store, lookup) {
      var i :| 0 <= i < |cands| && Missing(cands[i], m, store, lookup);
      assert all[i] == cands[i];
    }
    if Missing(c, m, store, lookup) {
      assert all[|cands|] == c;
    }
  }

  /** A mode joins the required list the first time a candidate misses it. */
  function Require(required: seq<Mode>, m: Mode, modes: seq<Mode>, c: QueuedEpisode, store: Store,
                   lookup: Guid -> PathLookup): seq<Mode>
  {
    if m in modes && m !in required && Missing(c, m, store, lookup) then required + [m] else required
  }

  /** The modes required after looking at `cands`, in the order they were
      first found missing, the introduction checked before the credits for
      each candidate. */
  function RequiredModes(cands: seq<QueuedEpisode>, modes: seq<Mode>, store: Store, lookup: Guid -> PathLookup): seq<Mode>
    decreases |cands|
  {
    if |cands| == 0 then []
    else
      var c := cands[|cands| - 1];
      var before := RequiredModes(cands[..|cands| - 1], modes, store, lookup);
      Require(Require(before, Introduction, modes, c, store, lookup), Credits, modes, c, store, lookup)
  }

  lemma RequireStep(required: seq<Mode>, m: Mode, modes: seq<Mode>, c: QueuedEpisode, store: Store,
                    lookup: Guid -> PathLookup)
    requires Distinct(required)
    ensures Distinct(Require(required, m, modes, c, store, lookup))
    ensures forall x :: x in Require(required, m, modes, c, store, lookup) <==>
      x in required || (x == m && m in modes && Missing(c, m, store, lookup))
  {
    var r := Require(required, m, modes, c, store, lookup);
    if r != required {
      forall i, j | 0 <= i < j < |r| ensures r[i] != r[j] {
        if j == |required| {
          assert r[i] == required[i];
        }
      }
    }
  }

  /** A mode is required exactly when it was requested and some candidate
      whose lookup succeeds has no result for it, and it is required once. */
  lemma {:induction false} RequiredModesSound(cands: seq<QueuedEpisode>, modes: seq<Mode>, store: Store,
                                              lookup: Guid -> PathLookup)
    ensures Distinct(RequiredModes(cands, modes, store, lookup))
    ensures forall m :: m in RequiredModes(cands, modes, store, lookup) <==>
      m in modes && NeedsMode(cands, m, store, lookup)
    decreases |cands|
  {
    if |cands| > 0 {
      var init := cands[..|cands| - 1];
      var c := cands[|cands| - 1];
      assert cands == init + [c];
      var before := RequiredModes(init, modes, store, lookup);
      RequiredModesSound(init, modes, store, lookup);
      NeedsModeSnoc(init, c, Introduction, store, lookup);
      NeedsModeSnoc(init, c, Credits, store, lookup);
      var withIntro := Require(before, Introduction, modes, c, store, lookup);
      RequireStep(before, Introduction, modes, c, store, lookup);
      RequireStep(withIntro, Credits, modes, c, store, lookup);
      forall m ensures m in RequiredModes(cands, modes, store, lookup) <==> m in modes && NeedsMode(cands, m, store, lookup) {
        if m != Introduction {
          assert m == Credits;
        }
      }
    }
  }

  /** What one more candidate adds to the verified list and to the required modes. */
  lemma VerifyQueueStep(candidates: seq<QueuedEpisode>, k: nat, modes: seq<Mode>, store: Store,
                        lookup: Guid -> PathLookup)
    requires k < |candidates|
    ensures var c := candidates[k];
      && Filter(candidates[..k + 1], KeepVerified(lookup)) ==
           Filter(candidates[..k], KeepVerified(lookup)) + (if KeepVerified(lookup)(c) then [c] else [])
      && RequiredModes(candidates[..k + 1], modes, store, lookup) ==
           Require(Require(RequiredModes(candidates[..k], modes, store, lookup), Introduction, modes, c, store, lookup),
                   Credits, modes, c, store, lookup)
  {
    var c := candidates[k];
    assert candidates[..k + 1] == candidates[..k] + [c];
    FilterSnoc(candidates[..k], c, KeepVerified(lookup));
    assert candidates[..k + 1][..k] == candidates[..k];
  }

  /** Re-checks a season's queue. The verified list is the candidates whose
      path lookup succeeds and whose file exists, in order. A requested mode
      is required, once, as soon as some candidate whose lookup succeeds has
      no stored result for it, whether or not that candidate's file exists. */
  method VerifyQueue(candidates: seq<QueuedEpisode>, modes: seq<Mode>, store: Store, lookup: Guid -> PathLookup)
    returns (verified: seq<QueuedEpisode>, required: seq<Mode>)
    ensures verified == Filter(candidates, KeepVerified(lookup))
    ensures forall m :: m in required <==> m in modes && NeedsMode(candidates, m, store, lookup)
    ensures Distinct(required)
    ensures required == RequiredModes(candidates, modes, store, lookup)
  {
    verified := [];
    required := [];
    var analyzeIntros := Introduction in modes;
    var analyzeCredits := Credits in modes;
    var k := 0;
    while k < |candidates|
      invariant 0 <= k <= |candidates|
      invariant verified == Filter(candidates[..k], KeepVerified(lookup))
      invariant required == RequiredModes(candidates[..k], modes, store, lookup)
      invariant analyzeIntros <==> Introduction in modes && Introduction !in required
      invariant analyzeCredits <==> Credits in modes && Credits !in required
    {
      var c := candidates[k];
      VerifyQueueStep(candidates, k, modes, store, lookup);
      ghost var withIntro := Require(required, Introduction, modes, c, store, lookup);
      ghost var after := Require(withIntro, Credits, modes, c, store, lookup);
      match lookup(c.episodeId) {
        case LookupFailed =>
        case ItemPath(fileExists) =>
          if fileExists {
            verified := verified + [c];
          }
          if analyzeIntros && c.episodeId !in store.intros {
            required := required + [Introduction];
            analyzeIntros := false;
          }
          assert required == withIntro;
          if analyzeCredits && c.episodeId !in store.credits {
            required := required + [Credits];
            analyzeCredits := false;
          }
      }
      assert required == after;
      k := k + 1;
    }
    assert candidates[..k] == candidates;
    RequiredModesSound(candidates, modes, store, lookup);
  }
}

=== FILE: skip_intro_controller.dfy ===
/** The playback endpoints: they hand out an adjusted copy of a stored
    segment, list the segments an episode has, and erase one mode's results.
    Routing, authorisation and response bodies are not modelled; an endpoint
    is a function of the store and the configuration. */
module SkipIntroController {
  import opened Common
  import opened Data
  import opened Store

  /** The copy of a stored segment a client receives. Its end is moved
      earlier by the seconds of intro the user wants to see; the skip prompt
      appears a little before the start but never before time zero, and
      disappears a little after the start but at least a second before the
      adjusted end. */
  function AdjustForPlayback(stored: Intro, cfg: Config): (s: Intro)
    ensures s.episodeId == stored.episodeId && s.introStart == stored.introStart
    ensures s.introEnd + cfg.secondsOfIntroToPlay as real == stored.introEnd
    ensures s.showSkipPromptAt >= 0.0
    ensures s.showSkipPromptAt >= stored.introStart - cfg.showPromptAdjustment as real
    ensures s.showSkipPromptAt == 0.0 || s.showSkipPromptAt == stored.introStart - cfg.showPromptAdjustment as real
    ensures s.hideSkipPromptAt <= s.introEnd - 1.0
    ensures s.hideSkipPromptAt <= stored.introStart + cfg.hidePromptAdjustment as real
    ensures s.hideSkipPromptAt == s.introEnd - 1.0 || s.hideSkipPromptAt == stored.introStart + cfg.hidePromptAdjustment as real
  {
    var introEnd := stored.introEnd - cfg.secondsOfIntroToPlay as real;
    var shown := stored.introStart - cfg.showPromptAdjustment as real;
    var hidden := stored.introStart + cfg.hidePromptAdjustment as real;
    Intro(stored.episodeId, stored.introStart, introEnd,
          if shown >= 0.0 then shown else 0.0,
          if hidden <= introEnd - 1.0 then hidden else introEnd - 1.0)
  }

  /** With non-negative adjustments, a segment that starts at or after zero
      and still lasts over a second once shortened gets a prompt that opens
      no later than the start and closes no earlier. */
  lemma PromptAroundStart(stored: Intro, cfg: Config)
    requires cfg.showPromptAdjustment >= 0 && cfg.hidePromptAdjustment >= 0
    requires stored.introStart >= 0.0
    requires stored.introStart + 1.0 <= stored.introEnd - cfg.secondsOfIntroToPlay as real
    ensures AdjustForPlayback(stored, cfg).showSkipPromptAt <= stored.introStart
    ensures stored.introStart <= AdjustForPlayback(stored, cfg).hideSkipPromptAt
  {
  }

  /** Looks up the segment of `mode` for an episode and returns the adjusted
      copy; a missing key gives `None`. The store itself is never touched. */
  function GetIntro(s: Store, cfg: Config, id: Guid, mode: Mode): (r: Option<Intro>)
    ensures r.None? <==> id !in Results(s, mode)
    ensures r.Some? ==> r.value.episodeId == Results(s, mode)[id].episodeId
    ensures r.Some? ==> r.value.introStart == Results(s, mode)[id].introStart
    ensures r.Some? ==> r.value.introEnd + cfg.secondsOfIntroToPlay as real == Results(s, mode)[id].introEnd
    ensures r.Some? ==> r.value == AdjustForPlayback(Results(s, mode)[id], cfg)
  {
    if id in Results(s, mode) then Some(AdjustForPlayback(Results(s, mode)[id], cfg)) else None
  }

  /** A segment just merged in is what the next lookup adjusts, and the
      other mode's lookups are unaffected by the merge. */
  lemma GetIntroAfterUpdate(s: Store, batch: map<Guid, Intro>, mode: Mode, cfg: Config, id: Guid)
    ensures id in batch ==>
      GetIntro(UpdateTimestamps(s, batch, mode), cfg, id, mode) == Some(AdjustForPlayback(batch[id], cfg))
    ensures id !in batch ==>
      GetIntro(UpdateTimestamps(s, batch, mode), cfg, id, mode) == GetIntro(s, cfg, id, mode)
    ensures GetIntro(UpdateTimestamps(s, batch, mode), cfg, id, OtherMode(mode)) == GetIntro(s, cfg, id, OtherMode(mode))
  {
  }

  /** The single-segment endpoint's answer. */
  datatype Response = Found(intro: Intro) | NotFound

  /** Answers with the adjusted segment, or with not-found when there is no
      segment or the adjusted copy is not valid. Validity is a rule of the
      segment type that is not part of this model, so it is a parameter. */
  function GetIntroTimestamps(s: Store, cfg: Config, id: Guid, mode: Mode, valid: Intro -> bool): (r: Response)
    ensures r.NotFound? <==> id !in Results(s, mode) || !valid(AdjustForPlayback(Results(s, mode)[id], cfg))
    ensures r.Found? ==> valid(r.intro) && GetIntro(s, cfg, id, mode) == Some(r.intro)
  {
    match GetIntro(s, cfg, id, mode)
    case None => NotFound
    case Some(intro) => if valid(intro) then Found(intro) else NotFound
  }

  /** Every segment of an episode, keyed by its mode. Validity plays no part here. */
  function GetSkippableSegments(s: Store, cfg: Config, id: Guid): (r: map<Mode, Intro>)
    ensures forall mode :: mode in r <==> id in Results(s, mode)
    ensures forall mode :: mode in r ==> GetIntro(s, cfg, id, mode) == Some(r[mode])
  {
    var withIntro := if id in s.intros then map[Introduction := AdjustForPlayback(s.intros[id], cfg)] else map[];
    if id in s.credits then withIntro[Credits := AdjustForPlayback(s.credits[id], cfg)] else withIntro
  }

  /** Whatever the single-segment endpoint finds is also listed by the
      all-segments endpoint, and a listed segment that is valid is found. */
  lemma FoundIsListed(s: Store, cfg: Config, id: Guid, mode: Mode, valid: Intro -> bool)
    ensures GetIntroTimestamps(s, cfg, id, mode, valid).Found? <==>
      mode in GetSkippableSegments(s, cfg, id) && valid(GetSkippableSegments(s, cfg, id)[mode])
    ensures GetIntroTimestamps(s, cfg, id, mode, valid).Found? ==>
      GetSkippableSegments(s, cfg, id)[mode] == GetIntroTimestamps(s, cfg, id, mode, valid).intro
  {
  }

  /** Erases every result of one mode; the other mode keeps all of its results. */
  function ResetIntroTimestamps(s: Store, mode: Mode): (r: Store)
    ensures Results(r, mode) == map[]
    ensures Results(r, OtherMode(mode)) == Results(s, OtherMode(mode))
  {
    match mode
    case Introduction => s.(intros := map[])
    case Credits => s.(credits := map[])
  }

  /** After a reset no episode has a segment of that mode, while every lookup
      of the other mode answers as before. */
  lemma ResetHidesOnlyThatMode(s: Store, cfg: Config, mode: Mode, id: Guid)
    ensures GetIntro(ResetIntroTimestamps(s, mode), cfg, id, mode).None?
    ensures mode !in GetSkippableSegments(ResetIntroTimestamps(s, mode), cfg, id)
    ensures GetIntro(ResetIntroTimestamps(s, mode), cfg, id, OtherMode(mode)) == GetIntro(s, cfg, id, OtherMode(mode))
  {
  }
}

=== FILE: store.dfy ===
/** The plugin's result store: one map from episode id to segment per mode,
    the merge analyzers call, and the list shape the maps are saved in and
    restored from. Locks and XML files are not modelled; the store is a value. */
module Store {
  import opened Common
  import opened Data

  datatype Store = Store(intros: map<Guid, Intro>, credits: map<Guid, Intro>)

  /** Every id stored in `a`, in either mode, is still stored in `b`: results
      are only ever merged in, never deleted, except by an explicit reset. */
  predicate KeepsIds(a: Store, b: Store)
  {
    a.intros.Keys <= b.intros.Keys && a.credits.Keys <= b.credits.Keys
  }

  /** The map holding the results of `mode`. */
  function Results(s: Store, mode: Mode): map<Guid, Intro>
  {
    match mode
    case Introduction => s.intros
    case Credits => s.credits
  }

  function OtherMode(mode: Mode): (m: Mode)
    ensures m != mode
  {
    match mode
    case Introduction => Credits
    case Credits => Introduction
  }

  /** Merges a batch of freshly found segments into the map of `mode`: each
      batch entry overwrites, every other entry stays, nothing is removed. */
  function UpdateTimestamps(s: Store, batch: map<Guid, Intro>, mode: Mode): (r: Store)
    ensures Results(r, mode).Keys == Results(s, mode).Keys + batch.Keys
    ensures forall id :: id in batch ==> Results(r, mode)[id] == batch[id]
    ensures forall id :: id in Results(s, mode) && id !in batch ==>
      Results(r, mode)[id] == Results(s, mode)[id]
    ensures Results(r, OtherMode(mode)) == Results(s, OtherMode(mode))
  {
    match mode
    case Introduction => s.(intros := s.intros + batch)
    case Credits => s.(credits := s.credits + batch)
  }

  /** Merging the same batch a second time changes nothing. */
  lemma UpdateTimestampsIdempotent(s: Store, batch: map<Guid, Intro>, mode: Mode)
    ensures UpdateTimestamps(UpdateTimestamps(s, batch, mode), batch, mode)
         == UpdateTimestamps(s, batch, mode)
  {
    var once := UpdateTimestamps(s, batch, mode);
    var twice := UpdateTimestamps(once, batch, mode);
    assert Results(twice, mode) == Results(once, mode);
    assert Results(twice, OtherMode(mode)) == Results(once, OtherMode(mode));
  }

  /** An empty batch leaves both maps as they were. */
  lemma UpdateTimestampsEmpty(s: Store, mode: Mode)
    ensures UpdateTimestamps(s, map[], mode) == s
  {
    assert Results(UpdateTimestamps(s, map[], mode), mode) == Results(s, mode);
  }

  /** The episode ids that occur in a saved list. */
  function IdsOf(list: seq<Intro>): set<Guid>
  {
    set i | 0 <= i < |list| :: list[i].episodeId
  }

  /** No entry after position `i` carries the same episode id as entry `i`. */
  predicate LastWithId(list: seq<Intro>, i: nat)
    requires i < |list|
  {
    forall j :: i < j < |list| ==> list[j].episodeId != list[i].episodeId
  }

  /** Loads a saved list into a map, keyed by each entry's own episode id:
      the keys are those of the map and of the list, and entries already in
      the map whose id the list does not mention are kept. */
  function RestoreList(m: map<Guid, Intro>, list: seq<Intro>): (r: map<Guid, Intro>)
    ensures r.Keys == m.Keys + IdsOf(list)
    ensures forall k :: k in m && k !in IdsOf(list) ==> r[k] == m[k]
    decreases |list|
  {
    if |list| == 0 then m
    else
      IdsOfCons(list);
      RestoreList(m[list[0].episodeId := list[0]], list[1..])
  }

  lemma IdsOfCons(list: seq<Intro>)
    requires |list| > 0
    ensures IdsOf(list) == {list[0].episodeId} + IdsOf(list[1..])
  {
    forall k | k in IdsOf(list) ensures k in {list[0].episodeId} + IdsOf(list[1..]) {
      var i :| 0 <= i < |list| && list[i].episodeId == k;
      if i > 0 { assert list[1..][i - 1].episodeId == k; }
    }
    forall k | k in IdsOf(list[1..]) ensures k in IdsOf(list) {
      var i :| 0 <= i < |list[1..]| && list[1..][i].episodeId == k;
      assert list[i + 1].episodeId == k;
    }
  }

  /** A later entry with the same id overwrites an earlier one: the entry that
      is last with its id is the one restored. */
  lemma {:induction false} RestoreListLastWins(m: map<Guid, Intro>, list: seq<Intro>, i: nat)
    requires i < |list| && LastWithId(list, i)
    ensures list[i].episodeId in RestoreList(m, list)
    ensures RestoreList(m, list)[list[i].episodeId] == list[i]
    decreases |list|
  {
    var m' := m[list[0].episodeId := list[0]];
    IdsOfCons(list);
    if i == 0 {
      assert list[0].episodeId !in IdsOf(list[1..]) by {
        forall j | 0 <= j < |list[1..]| ensures list[1..][j].episodeId != list[0].episodeId {
          assert list[1..][j] == list[j + 1];
        }
      }
    } else {
      assert LastWithId(list[1..], i - 1) by {
        forall j | i - 1 < j < |list[1..]| ensures list[1..][j].episodeId != list[1..][i - 1].episodeId {
          assert list[1..][j] == list[j + 1];
        }
      }
      RestoreListLastWins(m', list[1..], i - 1);
      assert list[1..][i - 1] == list[i];
    }
  }

  /** Every id the list mentions is restored to one of the list's entries with that id. */
  lemma {:induction false} RestoreListFromList(m: map<Guid, Intro>, list: seq<Intro>, k: Guid)
    requires k in IdsOf(list)
    ensures exists i :: 0 <= i < |list| && list[i].episodeId == k && RestoreList(m, list)[k] == list[i]
    decreases |list|
  {
    var m' := m[list[0].episodeId := list[0]];
    var r := RestoreList(m, list);
    IdsOfCons(list);
    if k in IdsOf(list[1..]) {
      RestoreListFromList(m', list[1..], k);
      var i :| 0 <= i < |list[1..]| && list[1..][i].episodeId == k && r[k] == list[1..][i];
      assert list[i + 1].episodeId == k && r[k] == list[i + 1];
    } else {
      assert list[0].episodeId == k && r[k] == list[0];
    }
  }

  /** Restores both maps from the saved lists; a missing file (`None`) leaves
      its map as it was. */
  function RestoreTimestamps(s: Store, introFile: Option<seq<Intro>>, creditFile: Option<seq<Intro>>): (r: Store)
    ensures introFile.None? ==> r.intros == s.intros
    ensures creditFile.None? ==> r.credits == s.credits
    ensures introFile.Some? ==> r.intros.Keys == s.intros.Keys + IdsOf(introFile.value)
    ensures creditFile.Some? ==> r.credits.Keys == s.credits.Keys + IdsOf(creditFile.value)
    ensures introFile.Some? ==> forall k :: k in s.intros && k !in IdsOf(introFile.value) ==> r.intros[k] == s.intros[k]
    ensures creditFile.Some? ==> forall k :: k in s.credits && k !in IdsOf(creditFile.value) ==> r.credits[k] == s.credits[k]
    ensures introFile.Some? ==> forall i :: 0 <= i < |introFile.value| && LastWithId(introFile.value, i) ==>
      r.intros[introFile.value[i].episodeId] == introFile.value[i]
    ensures creditFile.Some? ==> forall i :: 0 <= i < |creditFile.value| && LastWithId(creditFile.value, i) ==>
      r.credits[creditFile.value[i].episodeId] == creditFile.value[i]
  {
    var intros := if introFile.Some? then RestoreList(s.intros, introFile.value) else s.intros;
    var credits := if creditFile.Some? then RestoreList(s.credits, creditFile.value) else s.credits;
    RestoreListLastWinsAll(s.intros, if introFile.Some? then introFile.value else []);
    RestoreListLastWinsAll(s.credits, if creditFile.Some? then creditFile.value else []);
    Store(intros, credits)
  }

  /** `RestoreListLastWins` for every position of the list at once. */
  lemma RestoreListLastWinsAll(m: map<Guid, Intro>, list: seq<Intro>)
    ensures forall i :: 0 <= i < |list| && LastWithId(list, i) ==>
      list[i].episodeId in RestoreList(m, list) && RestoreList(m, list)[list[i].episodeId] == list[i]
  {
    forall i | 0 <= i < |list| && LastWithId(list, i)
      ensures list[i].episodeId in RestoreList(m, list) && RestoreList(m, list)[list[i].episodeId] == list[i]
    {
      RestoreListLastWins(m, list, i);
    }
  }

  /** Every stored segment sits under its own episode id. */
  predicate KeyedById(m: map<Guid, Intro>)
  {
    forall k :: k in m ==> m[k].episodeId == k
  }

  /** `list` holds the value under `keys[i]` at position `i`, and `keys` lists
      every key of `m` exactly once. */
  ghost predicate ListsValues(m: map<Guid, Intro>, list: seq<Intro>, keys: seq<Guid>)
  {
    && |keys| == |list|
    && (forall i, j :: 0 <= i < j < |keys| ==> keys[i] != keys[j])
    && (forall k :: k in m <==> k in keys)
    && (forall i :: 0 <= i < |list| ==> keys[i] in m && list[i] == m[keys[i]])
  }

  /** The values of a map as a list, one entry per key, in an unspecified order. */
  method ValuesOf(m: map<Guid, Intro>) returns (list: seq<Intro>)
    ensures |list| == |m|
    ensures forall v :: v in list ==> v in m.Values
    ensures forall k :: k in m ==> m[k] in list
    ensures exists keys :: ListsValues(m, list, keys)
  {
    list := [];
    ghost var keys: seq<Guid> := [];
    var rest := m.Keys;
    while rest != {}
      invariant rest <= m.Keys
      invariant |list| + |rest| == |m|
      invariant forall v :: v in list ==> v in m.Values
      invariant forall k :: k in m.Keys - rest ==> m[k] in list
      invariant |keys| == |list|
      invariant forall i, j :: 0 <= i < j < |keys| ==> keys[i] != keys[j]
      invariant forall k :: k in keys <==> k in m.Keys - rest
      invariant forall i :: 0 <= i < |list| ==> keys[i] in m && list[i] == m[keys[i]]
      decreases rest
    {
      var k :| k in rest;
      list := list + [m[k]];
      keys := keys + [k];
      rest := rest - {k};
    }
    assert ListsValues(m, list, keys);
  }

  /** Writes each map as a list of its values, the shape that goes to disk. */
  method SaveTimestamps(s: Store) returns (introList: seq<Intro>, creditList: seq<Intro>)
    ensures |introList| == |s.intros| && |creditList| == |s.credits|
    ensures forall v :: v in introList ==> v in s.intros.Values
    ensures forall k :: k in s.intros ==> s.intros[k] in introList
    ensures forall v :: v in creditList ==> v in s.credits.Values
    ensures forall k :: k in s.credits ==> s.credits[k] in creditList
    ensures exists keys :: ListsValues(s.intros, introList, keys)
    ensures exists keys :: ListsValues(s.credits, creditList, keys)
  {
    introList := ValuesOf(s.intros);
    creditList := ValuesOf(s.credits);
  }

  /** An entry of the saved list is the segment stored under its own id. */
  lemma SavedEntryIsStored(m: map<Guid, Intro>, v: Intro)
    requires KeyedById(m) && v in m.Values
    ensures v.episodeId in m && m[v.episodeId] == v
  {
    var k :| k in m && m[k] == v;
  }

  lemma SavedIdsAreKeys(m: map<Guid, Intro>, list: seq<Intro>)
    requires KeyedById(m)
    requires forall v :: v in list ==> v in m.Values
    requires forall k :: k in m ==> m[k] in list
    ensures IdsOf(list) == m.Keys
  {
    forall k | k in IdsOf(list) ensures k in m {
      var i :| 0 <= i < |list| && list[i].episodeId == k;
      SavedEntryIsStored(m, list[i]);
    }
    forall k | k in m ensures k in IdsOf(list) {
      var i :| 0 <= i < |list| && list[i] == m[k];
    }
  }

  /** Restoring the saved list of a map into an empty map gives the map back,
      as long as every segment is stored under its own episode id. */
  lemma SaveRestoreRoundTrip(m: map<Guid, Intro>, list: seq<Intro>)
    requires KeyedById(m)
    requires forall v :: v in list ==> v in m.Values
    requires forall k :: k in m ==> m[k] in list
    ensures RestoreList(map[], list) == m
  {
    var r := RestoreList(map[], list);
    SavedIdsAreKeys(m, list);
    assert r.Keys == m.Keys;
    forall k | k in m ensures r[k] == m[k] {
      assert k in IdsOf(list);
      RestoreListFromList(map[], list, k);
      var i :| 0 <= i < |list| && list[i].episodeId == k && r[k] == list[i];
      assert list[i] in list;
      SavedEntryIsStored(m, list[i]);
    }
  }
}

=== FILE: time_range.dfy ===
/** A range of time in seconds, as the plugin uses it to describe where a
    segment sits inside a media file. Times are exact reals here. */
module TimeRanges {
  import opened Common

  datatype TimeRange = TimeRange(start: real, end: real)

  /** The parameterless constructor: an empty range at time zero, which no
      other range can start or end inside. */
  function EmptyRange(): (r: TimeRange)
    ensures r.start == 0.0 && r.end == r.start
    ensures forall tr :: !Intersects(r, tr)
  {
    TimeRange(0.0, 0.0)
  }

  /** The copy constructor. Ranges are values here, so a copy is the range itself. */
  function CopyRange(original: TimeRange): (r: TimeRange)
    ensures r == original
  {
    TimeRange(original.start, original.end)
  }

  /** Length of the range: the amount by which the end lies past the start. */
  function Duration(tr: TimeRange): (d: real)
    ensures tr.start + d == tr.end
  {
    tr.end - tr.start
  }

  /** A range has a non-negative length exactly when it is well formed. */
  lemma DurationNonNegative(tr: TimeRange)
    ensures Duration(tr) >= 0.0 <==> tr.start <= tr.end
  {
  }

  /** Sign of a real number, the way `double.CompareTo` reports an order. */
  function Sign(x: real): int
  {
    if x < 0.0 then -1 else if x > 0.0 then 1 else 0
  }

  /** `IComparable` ordering: longer ranges sort first. `other` is `None` for a
      null argument; `sameObject` records reference identity, which a value
      model cannot observe by itself. */
  function CompareTo(self: TimeRange, other: Option<TimeRange>, sameObject: bool): (c: int)
    requires sameObject ==> other == Some(self)
    ensures -1 <= c <= 1
    ensures sameObject ==> c == 0
    ensures !sameObject && other.None? ==> c == 1
    ensures !sameObject && other.Some? ==>
      (c < 0 <==> Duration(other.value) < Duration(self)) &&
      (c == 0 <==> Duration(other.value) == Duration(self)) &&
      (c > 0 <==> Duration(other.value) > Duration(self))
  {
    if sameObject then 0
    else match other
      case None => 1
      case Some(tr) => Sign(Duration(tr) - Duration(self))
  }

  /** Comparing two distinct ranges in either direction gives opposite answers. */
  lemma CompareToAntisymmetric(a: TimeRange, b: TimeRange)
    ensures CompareTo(a, Some(b), false) == -CompareTo(b, Some(a), false)
  {
  }

  /** Under `CompareTo`, `a` sorts no later than `b` exactly when it lasts at least as long. */
  lemma CompareToSortsLongestFirst(a: TimeRange, b: TimeRange)
    ensures CompareTo(a, Some(b), false) <= 0 <==> Duration(a) >= Duration(b)
    ensures CompareTo(a, Some(b), false) == 0 <==> Duration(a) == Duration(b)
  {
  }

  /** The order is transitive, so sorting by it is well defined. */
  lemma CompareToTransitive(a: TimeRange, b: TimeRange, c: TimeRange)
    requires CompareTo(a, Some(b), false) <= 0 && CompareTo(b, Some(c), false) <= 0
    ensures CompareTo(a, Some(c), false) <= 0
  {
  }

  /** True when `tr` starts or ends strictly inside `self`. The test is
      deliberately one-sided: it is neither reflexive nor symmetric. */
  predicate Intersects(self: TimeRange, tr: TimeRange)
  {
    (self.start < tr.start && tr.start < self.end) ||
    (self.start < tr.end && tr.end < self.end)
  }

  /** Whatever `Intersects` reports really overlaps, provided `tr` is well formed. */
  lemma IntersectsSound(self: TimeRange, tr: TimeRange)
    requires Intersects(self, tr) && tr.start <= tr.end
    ensures Overlap(self, tr)
  {
  }

  /** No range intersects itself: its own endpoints are not strictly inside it. */
  lemma IntersectsIrreflexive(tr: TimeRange)
    ensures !Intersects(tr, tr)
  {
  }

  /** The two ranges share at least one instant. */
  predicate Overlap(a: TimeRange, b: TimeRange)
  {
    Max(a.start, b.start) <= Min(a.end, b.end)
  }

  function Max(a: real, b: real): real { if a >= b then a else b }
  function Min(a: real, b: real): real { if a <= b then a else b }

  /** The five intersection checks against the range 5..10 in the test suite. */
  lemma IntersectsTestVectors()
    ensures !Intersects(TimeRange(5.0, 10.0), TimeRange(1.0, 4.0))
    ensures Intersects(TimeRange(5.0, 10.0), TimeRange(4.0, 6.0))
    ensures Intersects(TimeRange(5.0, 10.0), TimeRange(7.0, 8.0))
    ensures Intersects(TimeRange(5.0, 10.0), TimeRange(9.0, 12.0))
    ensures !Intersects(TimeRange(5.0, 10.0), TimeRange(13.0, 15.0))
  {
  }

  /** A range that contains another is not seen from the inside: (5,10) does
      not intersect (1,12) although (1,12) intersects (5,10), and both overlap. */
  lemma IntersectsNotSymmetric()
    ensures Intersects(TimeRange(1.0, 12.0), TimeRange(5.0, 10.0))
    ensures !Intersects(TimeRange(5.0, 10.0), TimeRange(1.0, 12.0))
    ensures Overlap(TimeRange(5.0, 10.0), TimeRange(1.0, 12.0))
  {
  }
}

=== FILE: warning_manager.dfy ===
/** The plugin-wide warning flags: set one at a time, cleared together, and
    rendered as text the way a flags enumeration prints itself. */
module WarningManager {

  /** The warnings, in the order of their flag values. */
  datatype Warning = UnableToAddSkipButton | InvalidChromaprintFingerprint

  /** The flags currently raised. */
  type Warnings = set<Warning>

  /** Raises one flag; nothing is ever lowered. */
  function SetFlag(w: Warnings, flag: Warning): (r: Warnings)
    ensures flag in r && w <= r
    ensures forall f :: f in r && f != flag ==> f in w
  {
    w + {flag}
  }

  /** Lowers every flag. */
  function Clear(): (r: Warnings)
    ensures forall f :: f !in r
  {
    {}
  }

  /** Raising a flag that is already raised changes nothing. */
  lemma SetFlagIdempotent(w: Warnings, flag: Warning)
    ensures SetFlag(SetFlag(w, flag), flag) == SetFlag(w, flag)
  {
  }

  /** The order in which two flags are raised does not matter. */
  lemma SetFlagCommutes(w: Warnings, a: Warning, b: Warning)
    ensures SetFlag(SetFlag(w, a), b) == SetFlag(SetFlag(w, b), a)
  {
  }

  /** The name a flag prints as. */
  function Name(flag: Warning): (s: string)
    ensures |s| > 0
  {
    match flag
    case UnableToAddSkipButton => "UnableToAddSkipButton"
    case InvalidChromaprintFingerprint => "InvalidChromaprintFingerprint"
  }

  /** The names of the raised flags, in flag-value order. */
  function Names(w: Warnings): (names: seq<string>)
    ensures |names| == |w|
    ensures forall f :: f in w <==> Name(f) in names
  {
    assert w == {} || w == {UnableToAddSkipButton} || w == {InvalidChromaprintFingerprint} ||
           w == {UnableToAddSkipButton, InvalidChromaprintFingerprint} by {
      AllWarnings(w);
    }
    (if UnableToAddSkipButton in w then [Name(UnableToAddSkipButton)] else []) +
    (if InvalidChromaprintFingerprint in w then [Name(InvalidChromaprintFingerprint)] else [])
  }

  /** There are only four flag sets. */
  lemma AllWarnings(w: Warnings)
    ensures w == {} || w == {UnableToAddSkipButton} || w == {InvalidChromaprintFingerprint} ||
            w == {UnableToAddSkipButton, InvalidChromaprintFingerprint}
  {
    forall f | f in w ensures f == UnableToAddSkipButton || f == InvalidChromaprintFingerprint {
    }
    if UnableToAddSkipButton in w {
      if InvalidChromaprintFingerprint in w {
        assert w == {UnableToAddSkipButton, InvalidChromaprintFingerprint};
      } else {
        assert w == {UnableToAddSkipButton};
      }
    } else if InvalidChromaprintFingerprint in w {
      assert w == {InvalidChromaprintFingerprint};
    } else {
      assert w == {};
    }
  }

  /** Names joined with a comma and a space. */
  function JoinNames(names: seq<string>): string
  {
    if |names| == 0 then ""
    else if |names| == 1 then names[0]
    else names[0] + ", " + JoinNames(names[1..])
  }

  /** The text of the flags: "None" when no flag is raised, otherwise the
      raised flags' names joined by ", ". */
  function GetWarnings(w: Warnings): (s: string)
    ensures w == {} <==> s == "None"
    ensures forall f :: |w| == 1 && f in w ==> s == Name(f)
  {
    if |w| == 0 then "None" else JoinNames(Names(w))
  }

  /** Different flag sets print differently, so the text loses nothing. */
  lemma {:induction false} GetWarningsInjective(a: Warnings, b: Warnings)
    requires GetWarnings(a) == GetWarnings(b)
    ensures a == b
  {
    AllWarnings(a);
    AllWarnings(b);
    assert GetWarnings({UnableToAddSkipButton}) == "UnableToAddSkipButton";
    assert GetWarnings({InvalidChromaprintFingerprint}) == "InvalidChromaprintFingerprint";
    BothFlagsText();
    assert "UnableToAddSkipButton"[0] != "InvalidChromaprintFingerprint"[0];
    assert |"UnableToAddSkipButton, InvalidChromaprintFingerprint"| != |"UnableToAddSkipButton"|;
    assert |"UnableToAddSkipButton, InvalidChromaprintFingerprint"| != |"InvalidChromaprintFingerprint"|;
    assert "None"[0] != "UnableToAddSkipButton"[0] && "None"[0] != "InvalidChromaprintFingerprint"[0];
    assert |"None"| != |"UnableToAddSkipButton, InvalidChromaprintFingerprint"|;
  }

  lemma BothFlagsText()
    ensures GetWarnings({UnableToAddSkipButton, InvalidChromaprintFingerprint}) ==
      "UnableToAddSkipButton, InvalidChromaprintFingerprint"
  {
    var w := {UnableToAddSkipButton, InvalidChromaprintFingerprint};
    var names := [Name(UnableToAddSkipButton), Name(InvalidChromaprintFingerprint)];
    assert Names(w) == names;
    assert names[1..] == [Name(InvalidChromaprintFingerprint)];
    assert JoinNames(names[1..]) == Name(InvalidChromaprintFingerprint);
    assert JoinNames(names) == Name(UnableToAddSkipButton) + ", " + Name(InvalidChromaprintFingerprint);
    BothNamesJoined();
  }

  lemma BothNamesJoined()
    ensures Name(UnableToAddSkipButton) + ", " + Name(InvalidChromaprintFingerprint) ==
      "UnableToAddSkipButton, InvalidChromaprintFingerprint"
  {
  }

  /** An operation on the flags. */
  datatype Op = Raise(flag: Warning) | ClearAll

  /** The flags after a sequence of operations, starting from none raised. */
  function Run(ops: seq<Op>): Warnings
  {
    if |ops| == 0 then {}
    else
      var before := Run(ops[..|ops| - 1]);
      match ops[|ops| - 1]
      case Raise(flag) => SetFlag(before, flag)
      case ClearAll => Clear()
  }

  /** A flag is raised after a sequence of operations exactly when it was
      raised at some point after the last clear. */
  predicate RaisedSinceClear(ops: seq<Op>, flag: Warning, i: nat)
    requires i < |ops|
  {
    ops[i] == Raise(flag) && forall j :: i < j < |ops| ==> ops[j] != ClearAll
  }

  lemma {:induction false} RunIsLastClearOnwards(ops: seq<Op>, flag: Warning)
    ensures flag in Run(ops) <==> exists i :: 0 <= i < |ops| && RaisedSinceClear(ops, flag, i)
  {
    if |ops| > 0 {
      var init := ops[..|ops| - 1];
      var last := ops[|ops| - 1];
      RunIsLastClearOnwards(init, flag);
      if flag in Run(ops) {
        if last == Raise(flag) {
          assert RaisedSinceClear(ops, flag, |ops| - 1);
        } else {
          var i :| 0 <= i < |init| && RaisedSinceClear(init, flag, i);
          assert RaisedSinceClear(ops, flag, i);
        }
      }
      if exists i :: 0 <= i < |ops| && RaisedSinceClear(ops, flag, i) {
        var i :| 0 <= i < |ops| && RaisedSinceClear(ops, flag, i);
        if i < |ops| - 1 {
          assert last != ClearAll;
          assert RaisedSinceClear(init, flag, i);
        }
      }
    }
  }

  /** The three printing checks of the test suite. */
  lemma GetWarningsTestVectors()
    ensures GetWarnings(Run([ClearAll])) == "None"
    ensures GetWarnings(Run([ClearAll, Raise(UnableToAddSkipButton)])) == "UnableToAddSkipButton"
    ensures GetWarnings(Run([ClearAll, Raise(UnableToAddSkipButton), Raise(InvalidChromaprintFingerprint),
                             Raise(InvalidChromaprintFingerprint)])) ==
      "UnableToAddSkipButton, InvalidChromaprintFingerprint"
  {
    var ops := [ClearAll, Raise(UnableToAddSkipButton), Raise(InvalidChromaprintFingerprint),
                Raise(InvalidChromaprintFingerprint)];
    assert ops[..1] == [ClearAll] && ops[..2] == [ClearAll, Raise(UnableToAddSkipButton)];
    assert ops[..3] == ops[..2] + [Raise(InvalidChromaprintFingerprint)];
    assert [ClearAll][..0] == [];
    assert [ClearAll, Raise(UnableToAddSkipButton)][..1] == [ClearAll];
    assert ops[..3][..2] == ops[..2];
    assert Run(ops) == {UnableToAddSkipButton, InvalidChromaprintFingerprint};
    BothFlagsText();
    assert |{UnableToAddSkipButton}| == 1;
  }
}
